=== FILE: README.md ===
# DHFS4.1 image engine, modelled in Dafny

This project models the engine of `dhfs41.py`. That engine reads disk images written by DVRs that use the DHFS4.1 filesystem and gets their videos back out. The disk image is an immutable byte sequence, and every read is a clipped slice of it, as Python's `bytes` slicing and `file.read` behave. The engine is modelled as pure functions over that sequence:

- **Timestamps** (`timestamp.dfy`). `extract_bits`, the six bit fields of the packed 32-bit timestamp, and the fixed-width date and time formatters.
- **Layout** (`layout.dfy`).
  - The `DHFS4.1` magic.
  - The partition directory: 64-byte entries from 0x3C34, up to the `AA 55 AA 55` sentinel.
  - The superblock geometry. It is always read from the first partition.
  - Each partition's table fields, read at the first partition's superblock offset.
- **Descriptors** (`descriptors.dfy`).
  - 32-byte little-endian records.
  - Resolution through `begin` to the Main descriptor: fragment count, last-fragment size, slack and video size.
  - The `next`-pointer chain walk `getFragsInVideo` and `getLastDesc`.
  - The Main, Free and Dirty scans, and the type histogram.
- **Fragments and export** (`fragments.dfy`, `export.dfy`). `readFrag`, `readLastFrag` and `readSlackFrag`, plus the bytes that `saveVideoAt` and `saveSlackAt` write.
- **Recovery** (`recovery.dfy`). Signature carving over the free list (`saveRecAtFree`), grouping of dirty fragments into runs (`saveRecAtDirty`), and the combined count (`saveRecVideos`).
- **Image** (`image.dfy`). `loadImage`, `loadPartTable` and `loadDescs` put together.

In `dhfs41.py`, three loops can run forever: the directory scan when there is no sentinel, `getFragsInVideo` on a cyclic `next` chain, and the inner dirty loop on a run that never ends. The `begin` resolutions `getNumberFrags`, `getLastFragSize` and `getSlackSize`, and `getLastDesc` on `next`, are recursive instead. On a cycle they raise `RecursionError` once Python's recursion limit is reached. Here every one of these cases ends in an `Error` or `None` value. Walks and resolutions take a fuel bound of `|table| + 2`. `Descriptors.WalkBoundSuffices`, `Descriptors.MainOfBoundSuffices` and `Recovery.DirtyRunBoundSuffices` prove that this bound loses nothing that actually ends: no chain, no `begin` path, no dirty run. A record index past the end of the table reads as all zero bytes, just as Python's empty slice decodes to 0.

Supporting modules:

- `bytes.dfy`: bytes, slices, little-endian numbers and concatenation.
- `arith.dfy`: multiplication and division facts.
- `counting.dfy`: distinct sequences and their cardinality.
- `outcomes.dfy`: `Option`, `Result` and the error names.

## Model

| member | source | states |
|---|---|---|
| TimeStamp.ExtractBits | dhfs41.py:3-4 | The field that ends at bit `position` and is `width` bits wide is below 2^width. |
| TimeStamp.ExtractBitsSplit | dhfs41.py:3-4 | Shifting right by `lo` leaves the extracted field in the low bits, with the rest shifted above it, so consecutive fields tile a word. |
| TimeStamp.Decode | dhfs41.py:67-70 | The six fields fit their widths: year 6 bits, month 4, day 5, hour 5, minute 6, second 6. |
| TimeStamp.DecodeEncode | dhfs41.py:67-70 | For every word below 2^32, repacking the decoded fields at bits 26, 22, 17, 12, 6 and 0 gives the word back. The fields together cover all 32 bits. |
| TimeStamp.EncodeDecode | dhfs41.py:67-70 | Decoding a packed stamp whose fields fit their widths returns exactly those fields. |
| TimeStamp.EncodeDecodeTime | dhfs41.py:68-70 | Hour, minute and second survive packing and decoding. |
| TimeStamp.EncodeDecodeDate | dhfs41.py:68-69 | Year, month and day survive packing and decoding. |
| TimeStamp.Pad2 | dhfs41.py:99 | `{n:02d}` is a decimal digit string whose value is `n`, and it has two characters whenever `n < 100`. |
| TimeStamp.ToDate | dhfs41.py:97-99 | Always 10 characters: `20`, then year, `-`, month, `-`, day. Each field is two digits that read back as the decoded field. |
| TimeStamp.ToTime | dhfs41.py:101-103 | Always 8 characters: hour, `:`, minute, `:`, second. Each field is two digits that read back as the decoded field. |
| TimeStamp.ToHuman | dhfs41.py:105-108 | Always 19 characters: the date, a space, then the time. |
| Layout.NoSentinelPastEnd | dhfs41.py:136 | An entry that starts at or past the end of the medium reads short, so neither it nor any later entry is the sentinel. |
| Layout.PartitionsFromEnd | dhfs41.py:136-142 | A successful scan stops exactly at a sentinel entry. |
| Layout.PartitionsFromAt | dhfs41.py:136-142 | Every entry the scan passes is not the sentinel and yields the partition decoded from that entry. |
| Layout.PartitionsFromFailure | dhfs41.py:136-142 | A failed scan is `NoSentinel`, and then no entry from the start position on is the sentinel. |
| Layout.PartitionTable | dhfs41.py:127-142 | The partition count is the number of 64-byte entries from 0x3C00+0x34 before the first `AA 55 AA 55` entry. Each offset is LE64 of bytes 48..56 times 512, and each superblock offset is LE32 of bytes 20..24 times 512. Without a sentinel the result is `NoSentinel`, and only then. |
| Layout.ReadGeometry | dhfs41.py:157-169 | The 32-bit fields stay below 2^32, and the fragment size and logs offset are whole numbers of blocks. |
| Layout.GeometryReadsStored | dhfs41.py:161-163 | When the superblock holds `blk` at 0x2C and `frags` at 0x30, the block size is `blk` and the fragment size is `frags * blk`. |
| Layout.ReadTableInfo | dhfs41.py:268-274 | The descriptor and video offsets are whole numbers of blocks, and the fragment count stays below 2^32. |
| Layout.TableInfoReadsStored | dhfs41.py:268-274 | When the three little-endian words at superblock+0x44 hold `desc`, `video` and `n`, the offsets are `desc` and `video` blocks and the fragment count is `n`. |
| Layout.ReadTable | dhfs41.py:276-277 | At most `32 * numFrags` bytes, and exactly the bytes at the descriptor offset when they lie on the medium. |
| Descriptors.Field | dhfs41.py:26-40 | A little-endian field of `width` bytes is below 256^width, and a field past the end of a short record reads 0. |
| Descriptors.ParseDesc | dhfs41.py:22-40 | Every decoded record has fields that fit their byte widths, and an empty slice decodes to the all-zero record. |
| Descriptors.FieldOfPiece | dhfs41.py:26-40 | A field reads back the number whose little-endian bytes are stored at its offset. |
| Descriptors.ParseEncode | dhfs41.py:22-40 | Encoding a record at offsets 0, 1, 2, 4, 8, 12, 16, 20 and 24 and then decoding it gives the record back, whatever the last four bytes hold. |
| Descriptors.ParseEncodeLow | dhfs41.py:26-28 | The type, camera byte, count and two timestamps read back from bytes 0..12. |
| Descriptors.ParseEncodeHigh | dhfs41.py:30-40 | `next`, last size, `prev` and `begin` read back from bytes 12..28. |
| Descriptors.EncodeParse | dhfs41.py:22-40 | A 32-byte record is its decoded fields re-encoded, followed by its four unused bytes. No byte is lost. |
| Descriptors.ParseTable | dhfs41.py:19-24 | One record per 32-byte slice, plus a partial one when the read came up short. Each record is the decoding of the slice `getDesc` returns. |
| Descriptors.GetParsed | dhfs41.py:22-24 | Any index, even one past the table, reads the decoding of the clipped slice at `32 * i`. |
| Descriptors.GetFits | dhfs41.py:22-24 | Every record read from a decoded table fits its field widths. |
| Descriptors.MainOf | dhfs41.py:48-54 | The resolution ends on a Main descriptor. A Main descriptor resolves to itself, and it fails only from a non-Main descriptor. |
| Descriptors.MainOfFuel | dhfs41.py:48-54 | Once a resolution ends, more fuel does not change its result. |
| Descriptors.MainOfComplete | dhfs41.py:48-54 | A `begin` path to a Main descriptor that fits in the fuel is followed to its end. |
| Descriptors.MainOfFailure | dhfs41.py:48-54 | A resolution fails only when every `begin` path from `i` is longer than the fuel allows. |
| Descriptors.BeginPathDistinct | dhfs41.py:48-54 | A `begin` path that reaches a Main descriptor never visits a descriptor twice. |
| Descriptors.BeginPathLength | dhfs41.py:48-54 | Such a path is at most one longer than the table. |
| Descriptors.MainOfBoundSuffices | dhfs41.py:48-54 | With fuel `|table| + 2`, every Main descriptor that a `begin` path leads to is found, so only cyclic `begin` links fail. |
| Descriptors.NumberFrags | dhfs41.py:48-54 | Defined exactly when the Main descriptor is reached. It is that descriptor's count field plus 1, so it lies between 1 and 65536. |
| Descriptors.LastFragSize | dhfs41.py:206-212 | Defined exactly when the Main descriptor is reached. It is that descriptor's last-blocks field times the block size. |
| Descriptors.SlackSize | dhfs41.py:320-326 | Defined exactly when the last size is. Slack plus last size equals the fragment size. |
| Descriptors.VideoSize | dhfs41.py:328-330 | The video size is the Main descriptor's count times the fragment size, plus its last-blocks times the block size. |
| Descriptors.OneHopResolution | dhfs41.py:48-54 | A non-Main descriptor whose `begin` is Main takes its count+1, last size and slack from that Main descriptor. |
| Descriptors.Walk | dhfs41.py:214-228 | A completed walk is the chain from `i`. It starts at `i`, no element is 0 or 0xFFFFFFFF, each element is `next` of the one before, and it stops exactly at an end marker. It is empty from an end marker. |
| Descriptors.WalkComplete | dhfs41.py:220-223 | Any chain from `i` that fits in the fuel is what the walk returns. |
| Descriptors.ChainUnique | dhfs41.py:220-223 | There is at most one chain from any index. |
| Descriptors.WalkFailure | dhfs41.py:220-223 | A walk fails only when every chain from `i` is longer than the fuel. |
| Descriptors.ChainDistinct | dhfs41.py:220-223 | A chain that ends never visits a descriptor twice. |
| Descriptors.ChainLength | dhfs41.py:220-223 | A chain that ends is at most one longer than the table. |
| Descriptors.WalkBoundSuffices | dhfs41.py:220-223 | With fuel `|table| + 2`, the walk finds every chain that ends, so only cyclic links fail. |
| Descriptors.WalkIgnoresDeclaredCount | dhfs41.py:217-227 | Changing any descriptor's declared count leaves every walk unchanged, so a longer chain is never cut short. |
| Descriptors.LastDesc | dhfs41.py:42-46 | The descriptor found has `next` equal to 0. |
| Descriptors.LastDescEndsWalk | dhfs41.py:42-46 | When a chain ends on `next == 0`, `getLastDesc` returns the chain's last element. |
| Descriptors.LastDescCrossesEndMarker | dhfs41.py:44-46 | Because only 0 stops it, `getLastDesc` from a descriptor whose `next` is 0xFFFFFFFF returns 0xFFFFFFFF, which is past the table, while the chain walk stops there. |
| Descriptors.MainDescs | dhfs41.py:230-238 | In ascending order and below the fragment count: exactly the type-1 descriptors whose begin and end stamps differ. |
| Descriptors.MainDescsCountResolves | dhfs41.py:214-217 | The fragment count `getFragsInVideo` resolves before its loop is defined for every start that `getMainDescs` lists. |
| Descriptors.FreeDescs | dhfs41.py:240-246 | In ascending order and below the fragment count: exactly the type-0 descriptors. |
| Descriptors.DirtyDescs | dhfs41.py:248-258 | In ascending order and below the fragment count: exactly the type-2 descriptors missing from the chain of their `begin` index, where a missing chain counts as empty. |
| Descriptors.ScansClassify | dhfs41.py:230-258 | For each index, each scan lists it exactly when its one class is that scan's class. |
| Descriptors.ScansDisjoint | dhfs41.py:230-258 | No index is in two of the three scans. |
| Descriptors.DescTypes | dhfs41.py:199-204 | The histogram has a key for each type that occurs below the fragment count, mapped to its number of occurrences. |
| Descriptors.DescTypesTotal | dhfs41.py:199-204 | All keys are byte values, and the counts add up to the fragment count. |
| Descriptors.TypeCountedIsByte | dhfs41.py:199-204 | A type that is counted is a single byte value. |
| Descriptors.LinkVideos | dhfs41.py:291-294 | The keys are exactly the Main list. Each value is the walk from its key, and linking fails exactly when one of those walks does. |
| Fragments.ReadFrag | dhfs41.py:332-335 | At most one fragment long, and exactly the fragment's bytes when it lies on the medium. |
| Fragments.ReadLastFrag | dhfs41.py:337-340 | Defined exactly when the last size resolves from the fragment. It is at most that many bytes, and those exact bytes when on the medium. |
| Fragments.ReadSlackFrag | dhfs41.py:342-346 | Defined exactly when the last size resolves from the fragment. On the medium it is the fragment's bytes from the last size to the fragment's end. When the last size exceeds the fragment size, the read length is negative and it runs to the end of the medium. |
| Fragments.FragmentSplits | dhfs41.py:337-346 | A fragment on the medium is its data part followed by its slack, and the slack is as long as the resolved slack size. |
| Export.VideoBytes | dhfs41.py:361-370 | An empty chain fails as `frags[idx]` does in `saveVideoAt`, and otherwise the result is defined exactly when the last size resolves. |
| Export.VideoLayout | dhfs41.py:361-370 | On the medium, an exported video is `(len(chain)-1) * fragSize + lastFragSize` bytes and ends with the leading `lastFragSize` bytes of the last fragment. |
| Export.VideoFragmentAt | dhfs41.py:364-365 | Byte block `k` of the video is fragment `chain[k]` in full, for every fragment but the last. |
| Export.VideoBlocks | dhfs41.py:361-370 | On the medium, the exported bytes are every fragment of the chain but the last, read whole and laid back to back in chain order, then the leading `lastFragSize` bytes of the last fragment. |
| Export.ExportVideo | dhfs41.py:348-370 | The fragment count is resolved first, for the file name, so a `begin` path that does not end gives `MalformedChain` before anything else. After that, an unlinked descriptor is `NotAVideo` and an empty chain is `EmptyChain`. Otherwise the export succeeds exactly when the last fragment's size resolves. On the medium it is then `(len(chain)-1) * fragSize + lastFragSize` bytes: block `k` is fragment `chain[k]` read whole for every fragment but the last, and the rest is the last fragment's data. |
| Export.ExportLength | dhfs41.py:328-370 | For a video whose last fragment resolves to its Main descriptor, the export succeeds with the chain's length in fragments. It equals `getVideoSize` when the chain has the declared number of fragments. |
| Export.SlackBytes | dhfs41.py:375-397 | Nothing is written when the slack size is not positive. When it is positive: an unlinked descriptor is `NotAVideo`, an empty chain is `EmptyChain`, and otherwise the extract is produced and is the slack read at the last fragment of the chain. It fails with `MalformedChain` only when a size does not resolve. |
| Export.SlackLayout | dhfs41.py:375-397 | The slack extract is bytes `[lastFragSize, fragSize)` of the last chain fragment: exactly the slack-size bytes after the exported data. |
| Recovery.FirstStart | dhfs41.py:405-421 | The position of the first signature fragment. Every fragment before it is dropped. |
| Recovery.CarveOpen | dhfs41.py:405-421 | No file is open after the loop exactly when no signature fragment was seen, and then none was closed either. |
| Recovery.CarveCount | dhfs41.py:405-426 | The number of files equals the number of signature fragments. |
| Recovery.CarveWellFormed | dhfs41.py:405-421 | Every file starts with a signature fragment and holds no other. |
| Recovery.CarveConcat | dhfs41.py:405-421 | The files laid end to end are the free list from the first signature fragment on, so nothing after it is lost or reordered. |
| Recovery.CarveRuns | dhfs41.py:400-426 | The carved runs: as many as the signature fragments, each one signature fragment plus the following non-signature ones, together the free list from the first match on. |
| Recovery.CarveFilesBy | dhfs41.py:405-421 | Each carved file is the bytes of its run's fragments in order. |
| Recovery.CarveFiles | dhfs41.py:400-426 | The number of files is the number of free fragments whose first 32 bytes start with the signature. |
| Recovery.CarveExample | dhfs41.py:405-424 | The pattern `[sig, data, data, sig, data]` gives the runs `[[a,b,c],[d,e]]`. |
| Recovery.CarveExampleSizes | dhfs41.py:405-424 | On the medium, that pattern gives 2 files of 3 and 2 fragments. |
| Recovery.DefaultSignatureMatches | dhfs41.py:17 | The default pattern matches exactly the fragments whose first four bytes are `44 48 49 49`. |
| Recovery.DirtyRun | dhfs41.py:454-467 | A completed inner loop is the dirty run from `d`. It follows `next` while `next` is non-zero and shares `d`'s `begin`, and it stops exactly when that fails. |
| Recovery.DirtyRunComplete | dhfs41.py:462-467 | Any such run that fits in the fuel is what the inner loop returns. |
| Recovery.DirtyRunDistinct | dhfs41.py:462-467 | A dirty run that ends never visits a descriptor twice. |
| Recovery.DirtyRunLength | dhfs41.py:462-467 | A dirty run is at most one longer than the table. |
| Recovery.DirtyRunBoundSuffices | dhfs41.py:462-467 | With fuel `|table| + 2`, the inner loop finds every run that ends, so only a cycle fails. |
| Recovery.DirtyRunSharesBegin | dhfs41.py:462-463 | Every fragment of a run has the `begin` of its first fragment. |
| Recovery.DirtyFrom | dhfs41.py:438-477 | Each emitted run starts at a dirty index not yet written and is a dirty run, and at least as many fragments are written as the list is long. |
| Recovery.DirtyRuns | dhfs41.py:428-480 | The same from the start of the list. A failure is either a run that does not end or a position past the list. |
| Recovery.FirstUnsaved | dhfs41.py:438-439 | The first list position whose dirty index is not yet written: every earlier one is written, and that one is not. |
| Recovery.DirtyFromInOrder | dhfs41.py:438-477 | From any position with every earlier dirty index written, the emitted runs are in list order. |
| Recovery.DirtyRunsInOrder | dhfs41.py:438-477 | Run `k` starts at the first dirty index, in list order, not written by the runs before it. A run is started only while fewer fragments than the list's length have been written. |
| Recovery.DirtyFromErrors | dhfs41.py:438-440 | The outer loop fails only with `MalformedChain` or `DirtyListExhausted`. |
| Recovery.DirtyNeverExhausted | dhfs41.py:438-439 | With a repeat-free dirty list, the outer loop never indexes past its end. |
| Recovery.DirtyCoversAll | dhfs41.py:438-477 | When the runs stay within the dirty list and write no fragment twice, every dirty fragment is written. Without the first condition a dirty fragment can be dropped (`Recovery.DirtyDropExample`). |
| Recovery.DirtyExample | dhfs41.py:438-477 | Descriptors 10 (begin 5, next 11), 11 (begin 5, next 0) and 12 (next 0) give runs `[10, 11]` and `[12]`. |
| Recovery.DirtyDropExample | dhfs41.py:438-467 | The outer loop stops on the count of written fragments, not on the list. With 10 (begin 5, next 11) and 11 (begin 5, next 0), the list `[10, 20]` gives the single run `[10, 11]`: continuation 11 is outside the list and uses up the count, so dirty 20 is never written. This is why `Recovery.DirtyCoversAll` needs the runs to stay inside the list. |
| Fragments.ConcatLaidOut | dhfs41.py:332-335 | Fragments on the medium, read whole and concatenated, are `len * fragSize` bytes, with fragment `j` at offset `j * fragSize`. |
| Recovery.RecoverDirty | dhfs41.py:438-467 | One output per run, and it is defined exactly when the runs are. A run on the medium is recovered as `len(run) * fragSize` bytes, with block `j` the fragment `run[j]` read whole, as each `readFrag` is written in turn. |
| Recovery.RecoverCount | dhfs41.py:482-487 | The count is the carved-file count plus the number of dirty runs. |
| Image.PartitionTableOf | dhfs41.py:267-277 | Partition `p`'s fields are read at its own base but at the first partition's superblock offset. Its table has at most `numFrags` records, each fitting its field widths. |
| Image.LoadPartition | dhfs41.py:283-306 | Fails only with `MalformedChain`. On success it keeps the table read for that partition and a volume at its base and video offset, with the shared geometry. |
| Image.PartitionScans | dhfs41.py:283-306 | A loaded partition lists exactly the live Mains, the Free descriptors and the dirty Continuations below its fragment count. Each listed Main has its chain, and only listed Mains have one. |
| Image.WalkFailsUnending | dhfs41.py:214-228 | With fuel `|table| + 2`, the chain walk fails exactly when no `next` chain from its start ends. |
| Image.LinkFails | dhfs41.py:291-294 | Linking the live Main descriptors fails exactly when one of them has no chain that ends. |
| Image.LoadPartitionFails | dhfs41.py:283-306 | A partition fails to load exactly when a live Main descriptor below its fragment count has no `next` chain that ends. |
| Image.LoadViews | dhfs41.py:283-306 | One view per partition, each one the partition's own load. Loading fails exactly when some partition's load fails. |
| Image.LoadViewsFails | dhfs41.py:283-306 | Loading the views fails exactly when some partition has a live Main descriptor whose `next` chain does not end. |
| Image.LoadImage | dhfs41.py:147-176 | Without the `DHFS4.1` magic the result is `NotThisFilesystem`. A directory without a sentinel gives `NoSentinel`, and one without entries gives `NoPartition`. Otherwise the geometry comes from the first partition and every partition is loaded. |
| Image.SharedGeometry | dhfs41.py:157-169 | Every partition uses the first partition's block and fragment sizes and reads its table fields at the first partition's superblock offset. |
| Image.ViewScans | dhfs41.py:230-258 | In a loaded partition the three lists never meet, and the dirty list is strictly ascending. |

## Left out

- `dhfs_extractor.py`: a GUI with no engine logic.
- File I/O (`open`, `seek`, `read`, `write`, `close`). The disk is a byte sequence, and each output file is a byte sequence in a result list.
- `setConfig` and the `re` module: the carving signature is a fixed byte prefix of the first 32 bytes of a fragment. For the default signature this is what the anchored pattern matches.
- `saveLogs`, `getImageMetaData`, `printMetaData`, `DecodeDesc` (a display dictionary), every `print`, output file names and progress text.
- `firstDate`, `lastDate`, `FRAG_RESERVED` and `logsOffset`: these are read (`Layout.ReadGeometry`) but nothing else in the core uses them.
- The debug warning in `getFragsInVideo` when a chain is longer than its declared count. It has no effect on the result (`Descriptors.WalkIgnoresDeclaredCount`).
- Descriptors.Walk: the call to `getNumberFrags` that `getFragsInVideo` makes before its loop (dhfs41.py:217) is not modelled. That call raises `RecursionError` only for a start that is not a Main descriptor and whose `begin` path does not end. `loadDescs` walks only the starts listed by `getMainDescs`, and those always resolve (`Descriptors.MainDescsCountResolves`).
- Non-termination. In `dhfs41.py` a directory without a sentinel, a cyclic `next` chain and a dirty run that never ends make a `while` loop run forever. Here they give `NoSentinel` or `MalformedChain`.
- Descriptors.MainOf: Python's recursion limit is not modelled. A cyclic `begin` path makes `getNumberFrags`, `getLastFragSize` and `getSlackSize` raise `RecursionError`, and here it gives `None`. An acyclic `begin` path deeper than the limit (about 1000 hops) also raises in `dhfs41.py`, but here it resolves.
- Descriptors.LastDesc: the same holds for the recursion of `getLastDesc` along `next`. A cycle gives `None` here instead of `RecursionError`, and a chain deeper than the recursion limit resolves here.
- Image.LoadViews: if any partition's chains are cyclic, the whole load fails. `dhfs41.py` hangs at that point instead of loading the other partitions.
- TimeStamp.ToHuman: only states the length and the composition of date and time. The digits are stated by `TimeStamp.ToDate` and `TimeStamp.ToTime`.
- The accessors `getCamera`, `getFragNumber`, `getPrevDesc`, `getTimeStamps` and `getNumbDescs` are one-line field reads (`Descriptors.Camera`, `FragNumber`, `Prev`, `BeginStamp`, `EndStamp`, `NumDescs`). They have no contracts of their own. The record layout they read is fixed by `Descriptors.ParseEncode` and `Descriptors.EncodeParse`.
- TimeStamp.ExtractBits: requires `width <= position + 1`. Otherwise the shift count would be negative and Python raises `ValueError`. Every call in the timestamp decoder meets this requirement.
- Integer widths: every field is read as a little-endian number of its own width, and products such as offset times block size are unbounded, as in Python.
- Seek limits: every such product becomes a file `seek` target in `dhfs41.py`, and a target of 2^63 or more makes the buffered reader's `seek` raise `ValueError` there. This happens, for example, when a directory entry's LE64 at bytes 48..56 is 2^54 or more. `Bytes.Read` is not bounded this way: past the end of the medium it returns the empty sequence, as a read after a `seek` beyond the end of the file does.

=== FILE: arith.dfy ===
/** Small facts of integer arithmetic that the solver does not find unaided. */
module Arith {

  lemma MulAdd(a: int, b: int, c: int)
    ensures a * (b + c) == a * b + a * c
  {
  }

  lemma MulComm(a: int, b: int)
    ensures a * b == b * a
  {
  }

  lemma MulAssoc(a: int, b: int, c: int)
    ensures a * (b * c) == (a * b) * c
  {
  }

  lemma MulLe(a: nat, x: nat, y: nat)
    requires x <= y
    ensures a * x <= a * y
  {
  }

  /** Quotient and remainder are determined by `n == d * q + r` with `r < d`. */
  lemma DivUnique(n: nat, d: nat, q: nat, r: nat)
    requires d > 0 && r < d && n == d * q + r
    ensures n / d == q && n % d == r
  {
    var q', r' := n / d, n % d;
    assert d * q' + r' == n;
    if q' < q {
      MulLe(d, q' + 1, q);
      MulAdd(d, q', 1);
      assert false;
    } else if q < q' {
      MulLe(d, q + 1, q');
      MulAdd(d, q, 1);
      assert false;
    }
  }

  /** Two divisions with remainders compose into one, stated without division. */
  lemma NestedQuotient(n: nat, a: nat, b: nat, q: nat, r: nat, q2: nat, r2: nat)
    requires a > 0 && b > 0 && n == a * q + r && r < a && q == b * q2 + r2 && r2 < b
    ensures n == (a * b) * q2 + (a * r2 + r) && a * r2 + r < a * b
  {
    MulAdd(a, b * q2, r2);
    MulAssoc(a, b, q2);
    MulLe(a, r2, b - 1);
    MulAdd(a, b - 1, 1);
  }

  lemma DivDiv(n: nat, a: nat, b: nat)
    requires a > 0 && b > 0
    ensures n / a / b == n / (a * b)
  {
    var q, r := n / a, n % a;
    var q2, r2 := q / b, q % b;
    NestedQuotient(n, a, b, q, r, q2, r2);
    DivUnique(n, a * b, q2, a * r2 + r);
  }

  lemma MultipleMod(a: nat, b: nat)
    requires b > 0
    ensures (a * b) % b == 0
  {
    MulComm(a, b);
    DivUnique(a * b, b, a, 0);
  }
}

=== FILE: bytes.dfy ===
/**
  Byte strings as the engine sees them: Python slices, sequential file
  reads and little-endian integer fields.
 */
module Bytes {

  type byte = b: int | 0 <= b < 256

  type bytes = seq<byte>

  function Min(a: int, b: int): int {
    if a <= b then a else b
  }

  function Pow256(n: nat): (r: nat)
    ensures r >= 1
  {
    if n == 0 then 1 else 256 * Pow256(n - 1)
  }

  /** The Python slice `s[lo:hi]` for non-negative bounds: it is clipped to `s`. */
  function Slice<T>(s: seq<T>, lo: nat, hi: nat): (r: seq<T>)
    ensures |r| == if hi <= lo || |s| <= lo then 0 else Min(hi, |s|) - lo
    ensures forall k :: 0 <= k < |r| ==> r[k] == s[lo + k]
  {
    if |s| <= lo || hi <= lo then [] else s[lo .. Min(hi, |s|)]
  }

  /**
    The bytes a file positioned at `pos` hands back for `read(n)`: at most `n`
    bytes, fewer at the end of the medium, and everything up to the end when
    `n` is negative.
   */
  function Read(disk: bytes, pos: nat, n: int): (r: bytes)
    ensures n >= 0 && pos + n <= |disk| ==> r == disk[pos .. pos + n]
    ensures n >= 0 ==> |r| <= n
    ensures pos <= |disk| && n < 0 ==> r == disk[pos..]
  {
    if n < 0 then Slice(disk, pos, |disk|) else Slice(disk, pos, pos + n)
  }

  /** `int.from_bytes(s, byteorder='little')`. */
  function LE(s: bytes): (r: nat)
    ensures r < Pow256(|s|)
  {
    if |s| == 0 then 0 else s[0] + 256 * LE(s[1..])
  }

  /** The `n`-byte little-endian encoding of `v` (the top bytes of a too-large `v` are lost). */
  function ToLE(v: nat, n: nat): (r: bytes)
    ensures |r| == n
  {
    if n == 0 then [] else [v % 256] + ToLE(v / 256, n - 1)
  }

  /** Decoding an encoding gives the value back when it fits in the width. */
  lemma {:induction false} LEOfToLE(v: nat, n: nat)
    requires v < Pow256(n)
    ensures LE(ToLE(v, n)) == v
  {
    if n > 0 {
      var r := ToLE(v, n);
      assert r[1..] == ToLE(v / 256, n - 1);
      LEOfToLE(v / 256, n - 1);
    }
  }

  /** Encoding a decoded field gives the field's bytes back. */
  lemma {:induction false} ToLEOfLE(s: bytes)
    ensures ToLE(LE(s), |s|) == s
  {
    if |s| > 0 {
      ToLEOfLE(s[1..]);
    }
  }

  /** The little-endian value of a 4-byte field at `pos`; short at the end of the medium. */
  function LE32At(disk: bytes, pos: nat): (r: nat)
    ensures r < 0x1_0000_0000
  {
    var s := Read(disk, pos, 4);
    assert Pow256(|s|) <= Pow256(4) by { PowMono(|s|, 4); }
    LE(s)
  }

  lemma PowMono(a: nat, b: nat)
    requires a <= b
    ensures Pow256(a) <= Pow256(b)
  {
  }

  /** Concatenation of a sequence of byte strings, in order. */
  function Concat<T>(parts: seq<seq<T>>): (r: seq<T>)
    ensures |parts| == 0 ==> r == []
  {
    if |parts| == 0 then [] else Concat(parts[..|parts| - 1]) + parts[|parts| - 1]
  }

  lemma ConcatSnoc<T>(parts: seq<seq<T>>, x: seq<T>)
    ensures Concat(parts + [x]) == Concat(parts) + x
  {
    assert (parts + [x])[..|parts|] == parts;
  }

  lemma ConcatCons<T>(x: seq<T>, parts: seq<seq<T>>)
    ensures Concat([x] + parts) == x + Concat(parts)
  {
    ConcatAppend([x], parts);
    ConcatOne(x);
  }

  lemma ConcatOne<T>(x: seq<T>)
    ensures Concat([x]) == x
  {
    assert [x][..0] == [];
  }

  /** Concatenating parts of one common length `w` gives `|parts| * w` bytes. */
  lemma {:induction false} ConcatUniformLength<T>(parts: seq<seq<T>>, w: nat)
    requires forall k :: 0 <= k < |parts| ==> |parts[k]| == w
    ensures |Concat(parts)| == |parts| * w
  {
    if |parts| > 0 {
      ConcatUniformLength(parts[..|parts| - 1], w);
    }
  }

  /** Part `k` of a uniform concatenation is found at offset `k * w`. */
  lemma {:induction false} ConcatUniformPart<T>(parts: seq<seq<T>>, w: nat, k: nat)
    requires forall j :: 0 <= j < |parts| ==> |parts[j]| == w
    requires k < |parts|
    ensures |Concat(parts)| == |parts| * w
    ensures k * w + w <= |parts| * w
    ensures Concat(parts)[k * w .. k * w + w] == parts[k]
  {
    var n := |parts|;
    ConcatUniformLength(parts, w);
    ConcatUniformLength(parts[..n - 1], w);
    if k < n - 1 {
      ConcatUniformPart(parts[..n - 1], w, k);
      assert (n - 1) * w >= k * w + w by {
        assert k + 1 <= n - 1;
        MulMono(k + 1, n - 1, w);
      }
    } else {
      assert k * w == (n - 1) * w;
    }
  }

  /** Uniform parts followed by a tail: the tail comes after all the parts. */
  lemma PartsThenTail<T>(parts: seq<seq<T>>, tail: seq<T>, w: nat)
    requires forall j :: 0 <= j < |parts| ==> |parts[j]| == w
    ensures |Concat(parts) + tail| == |parts| * w + |tail|
    ensures (Concat(parts) + tail)[|parts| * w ..] == tail
  {
    ConcatUniformLength(parts, w);
  }

  /** Uniform parts followed by a tail: part `k` sits at offset `k * w`. */
  lemma PartThenTailAt<T>(parts: seq<seq<T>>, tail: seq<T>, w: nat, k: nat)
    requires forall j :: 0 <= j < |parts| ==> |parts[j]| == w
    requires k < |parts|
    ensures k * w + w <= |Concat(parts) + tail|
    ensures (Concat(parts) + tail)[k * w .. k * w + w] == parts[k]
  {
    var c := Concat(parts);
    ConcatUniformPart(parts, w, k);
    var x := k * w;
    AppendSlice(c, tail, x, x + w);
  }

  lemma AppendSlice<T>(c: seq<T>, tail: seq<T>, a: nat, b: nat)
    requires a <= b <= |c|
    ensures (c + tail)[a .. b] == c[a .. b]
  {
  }

  /** Concatenation distributes over appending lists of parts. */
  lemma {:induction false} ConcatAppend<T>(a: seq<seq<T>>, b: seq<seq<T>>)
    ensures Concat(a + b) == Concat(a) + Concat(b)
  {
    if |b| == 0 {
      assert a + b == a;
    } else {
      assert (a + b)[..|a + b| - 1] == a + b[..|b| - 1];
      ConcatAppend(a, b[..|b| - 1]);
    }
  }

  lemma MulMono(a: nat, b: nat, w: nat)
    requires a <= b
    ensures a * w <= b * w
  {
  }
}

=== FILE: counting.dfy ===
/** Cardinality facts about the elements of sequences. */
module Counting {

  /** The set of elements of `s`. */
  function Elems(s: seq<nat>): (r: set<nat>)
    ensures forall x :: x in r <==> x in s
  {
    set x | x in s
  }

  /** No element repeats. */
  predicate Distinct(s: seq<nat>) {
    forall i, j :: 0 <= i < j < |s| ==> s[i] != s[j]
  }

  lemma {:induction false} ElemsBound(s: seq<nat>)
    ensures |Elems(s)| <= |s|
    ensures Distinct(s) ==> |Elems(s)| == |s|
  {
    if |s| > 0 {
      var init := s[..|s| - 1];
      ElemsBound(init);
      assert Elems(s) == Elems(init) + {s[|s| - 1]};
      if Distinct(s) {
        assert Distinct(init);
        assert s[|s| - 1] !in Elems(init);
      }
    }
  }

  lemma {:induction false} SubsetCard(a: set<nat>, b: set<nat>)
    requires a <= b
    ensures |a| <= |b|
    decreases |a|
  {
    if a != {} {
      var x :| x in a;
      SubsetCard(a - {x}, b - {x});
    }
  }

  /** A subset at least as large as its superset is all of it. */
  lemma SubsetFull(a: set<nat>, b: set<nat>)
    requires a <= b && |a| >= |b|
    ensures a == b
  {
    if a != b {
      var x :| x in b && x !in a;
      SubsetCard(a, b - {x});
    }
  }

  /** A duplicate-free sequence whose elements all occur in `u` is no longer than `u`. */
  lemma DistinctCovered(s: seq<nat>, u: seq<nat>)
    requires Distinct(s) && forall x :: x in s ==> x in u
    ensures |s| <= |u|
  {
    ElemsBound(s);
    ElemsBound(u);
    SubsetCard(Elems(s), Elems(u));
  }
}

=== FILE: descriptors.dfy ===
/**
  The descriptor table of one partition: 32-byte records read as
  little-endian fields, the back-pointer resolution to a chain's Main
  descriptor, the `next`-pointer chain walk and the classification scans.
  Any index may be asked for: a record past the end of the table reads as
  all zero, as Python's clipped slices of `dhfs41.py` do.
 */
module Descriptors {
  import opened Bytes
  import opened Outcomes
  import opened Counting

  const DescSize: nat := 32
  /** The `next` value that also ends a chain walk (besides 0). */
  const EndOfChain: nat := 0xFFFF_FFFF

  const FreeType: nat := 0
  const MainType: nat := 1
  const ContinuationType: nat := 2

  /** One 32-byte descriptor record with its little-endian fields decoded. */
  datatype Descriptor = Descriptor(
    descType: nat,    // offset 0, 1 byte: Free 0, Main 1, Continuation 2
    cameraByte: nat,  // offset 1, 1 byte
    count: nat,       // offset 2, 2 bytes: fragment ordinal, or fragment count minus one on a Main
    beginStamp: nat,  // offset 4, 4 bytes
    endStamp: nat,    // offset 8, 4 bytes
    next: nat,        // offset 12, 4 bytes
    lastBlocks: nat,  // offset 16, 4 bytes: size of a video's last fragment in blocks
    prev: nat,        // offset 20, 4 bytes
    begin: nat)       // offset 24, 4 bytes: index of the chain's Main descriptor

  /** What an empty slice decodes to: every `int.from_bytes(b'')` is 0. */
  const Zero: Descriptor := Descriptor(0, 0, 0, 0, 0, 0, 0, 0, 0)

  /** Every field fits its width on disk. */
  predicate Fits(d: Descriptor) {
    && d.descType < 0x100 && d.cameraByte < 0x100 && d.count < 0x1_0000
    && d.beginStamp < 0x1_0000_0000 && d.endStamp < 0x1_0000_0000 && d.next < 0x1_0000_0000
    && d.lastBlocks < 0x1_0000_0000 && d.prev < 0x1_0000_0000 && d.begin < 0x1_0000_0000
  }

  /** The little-endian field of `width` bytes at offset `off` of a record, clipped like a slice. */
  function Field(d: bytes, off: nat, width: nat): (r: nat)
    ensures r < Pow256(width)
    ensures |d| <= off ==> r == 0
  {
    var s := Slice(d, off, off + width);
    PowMono(|s|, width);
    LE(s)
  }

  /** The accessors `getDescType` ... `getBeginDesc` applied to one record. */
  function ParseDesc(d: bytes): (r: Descriptor)
    ensures Fits(r)
    ensures d == [] ==> r == Zero
  {
    assert Pow256(1) == 0x100 && Pow256(2) == 0x1_0000 && Pow256(4) == 0x1_0000_0000;
    Descriptor(Field(d, 0, 1), Field(d, 1, 1), Field(d, 2, 2), Field(d, 4, 4), Field(d, 8, 4),
               Field(d, 12, 4), Field(d, 16, 4), Field(d, 20, 4), Field(d, 24, 4))
  }

  /** The first 28 bytes of a record holding `r`'s fields (bytes 28..31 carry none). */
  function EncodeDesc(r: Descriptor): (e: bytes)
    ensures |e| == 28
  {
    ToLE(r.descType, 1) + ToLE(r.cameraByte, 1) + ToLE(r.count, 2) + ToLE(r.beginStamp, 4)
      + ToLE(r.endStamp, 4) + ToLE(r.next, 4) + ToLE(r.lastBlocks, 4) + ToLE(r.prev, 4)
      + ToLE(r.begin, 4)
  }

  /** The field read at the offset where a value was written is that value. */
  lemma FieldOfPiece(d: bytes, off: nat, x: nat, w: nat)
    requires off + w <= |d| && d[off .. off + w] == ToLE(x, w) && x < Pow256(w)
    ensures Field(d, off, w) == x
  {
    assert Slice(d, off, off + w) == d[off .. off + w];
    LEOfToLE(x, w);
  }

  /** Decoding an encoded record, padded to 32 bytes, gives the record back. */
  lemma ParseEncode(r: Descriptor, pad: bytes)
    requires Fits(r) && |pad| == 4
    ensures ParseDesc(EncodeDesc(r) + pad) == r
  {
    var lo := ToLE(r.descType, 1) + ToLE(r.cameraByte, 1) + ToLE(r.count, 2) + ToLE(r.beginStamp, 4)
      + ToLE(r.endStamp, 4);
    var hi := ToLE(r.next, 4) + ToLE(r.lastBlocks, 4) + ToLE(r.prev, 4) + ToLE(r.begin, 4);
    assert EncodeDesc(r) + pad == lo + hi + pad;
    ParseEncodeLow(r, lo + hi + pad);
    ParseEncodeHigh(r, lo + hi + pad);
  }

  lemma ParseEncodeLow(r: Descriptor, d: bytes)
    requires Fits(r) && |d| >= 12
    requires d[..12] == ToLE(r.descType, 1) + ToLE(r.cameraByte, 1) + ToLE(r.count, 2) + ToLE(r.beginStamp, 4)
      + ToLE(r.endStamp, 4)
    ensures var p := ParseDesc(d);
      p.descType == r.descType && p.cameraByte == r.cameraByte && p.count == r.count
      && p.beginStamp == r.beginStamp && p.endStamp == r.endStamp
  {
    assert Pow256(1) == 0x100 && Pow256(2) == 0x1_0000 && Pow256(4) == 0x1_0000_0000;
    SplitHead(d, ToLE(r.descType, 1), ToLE(r.cameraByte, 1), ToLE(r.count, 2), ToLE(r.beginStamp, 4),
      ToLE(r.endStamp, 4));
    FieldOfPiece(d, 0, r.descType, 1);
    FieldOfPiece(d, 1, r.cameraByte, 1);
    FieldOfPiece(d, 2, r.count, 2);
    FieldOfPiece(d, 4, r.beginStamp, 4);
    FieldOfPiece(d, 8, r.endStamp, 4);
  }

  /** The pieces of the first 12 bytes, 1, 1, 2, 4 and 4 bytes wide, can be read back one by one. */
  lemma SplitHead(d: bytes, a: bytes, b: bytes, c: bytes, e: bytes, f: bytes)
    requires |a| == 1 && |b| == 1 && |c| == 2 && |e| == 4 && |f| == 4
    requires 12 <= |d| && d[..12] == a + b + c + e + f
    ensures d[0..1] == a && d[1..2] == b && d[2..4] == c && d[4..8] == e && d[8..12] == f
  {
    var w := a + b + c + e + f;
    assert forall k :: 0 <= k < 12 ==> d[k] == w[k] by {
      forall k | 0 <= k < 12 ensures d[k] == w[k] {
        assert d[k] == d[..12][k];
      }
    }
    assert d[0..1] == w[0..1] && d[1..2] == w[1..2] && d[2..4] == w[2..4];
    assert d[4..8] == w[4..8] && d[8..12] == w[8..12];
  }

  /** Four consecutive 4-byte pieces stored at `off` can be read back one by one. */
  lemma Split4(d: bytes, off: nat, a: bytes, b: bytes, c: bytes, e: bytes)
    requires |a| == 4 && |b| == 4 && |c| == 4 && |e| == 4
    requires off + 16 <= |d| && d[off .. off + 16] == a + b + c + e
    ensures d[off .. off + 4] == a && d[off + 4 .. off + 8] == b
    ensures d[off + 8 .. off + 12] == c && d[off + 12 .. off + 16] == e
  {
    assert forall k :: 0 <= k < 4 ==>
      (d[off + k] == a[k] && d[off + 4 + k] == b[k] && d[off + 8 + k] == c[k] && d[off + 12 + k] == e[k]) by {
      forall k | 0 <= k < 4
        ensures d[off + k] == a[k] && d[off + 4 + k] == b[k] && d[off + 8 + k] == c[k] && d[off + 12 + k] == e[k]
      {
        assert d[off + k] == d[off .. off + 16][k];
        assert d[off + 4 + k] == d[off .. off + 16][4 + k];
        assert d[off + 8 + k] == d[off .. off + 16][8 + k];
        assert d[off + 12 + k] == d[off .. off + 16][12 + k];
      }
    }
  }

  lemma ParseEncodeHigh(r: Descriptor, d: bytes)
    requires Fits(r) && |d| >= 28
    requires d[12..28] == ToLE(r.next, 4) + ToLE(r.lastBlocks, 4) + ToLE(r.prev, 4) + ToLE(r.begin, 4)
    ensures var p := ParseDesc(d);
      p.next == r.next && p.lastBlocks == r.lastBlocks && p.prev == r.prev && p.begin == r.begin
  {
    assert Pow256(4) == 0x1_0000_0000;
    Split4(d, 12, ToLE(r.next, 4), ToLE(r.lastBlocks, 4), ToLE(r.prev, 4), ToLE(r.begin, 4));
    FieldOfPiece(d, 12, r.next, 4);
    FieldOfPiece(d, 16, r.lastBlocks, 4);
    FieldOfPiece(d, 20, r.prev, 4);
    FieldOfPiece(d, 24, r.begin, 4);
  }

  /** A full record is its decoded fields re-encoded, then its four unused bytes. */
  lemma EncodeParse(d: bytes)
    requires |d| == DescSize
    ensures EncodeDesc(ParseDesc(d)) + d[28..] == d
  {
    ToLEOfLE(d[0..1]);
    ToLEOfLE(d[1..2]);
    ToLEOfLE(d[2..4]);
    ToLEOfLE(d[4..8]);
    ToLEOfLE(d[8..12]);
    ToLEOfLE(d[12..16]);
    ToLEOfLE(d[16..20]);
    ToLEOfLE(d[20..24]);
    ToLEOfLE(d[24..28]);
    assert d == d[0..1] + d[1..2] + d[2..4] + d[4..8] + d[8..12] + d[12..16] + d[16..20]
      + d[20..24] + d[24..28] + d[28..];
  }

  /** The descriptor table, one decoded record per 32 bytes (the last one possibly short). */
  type Table = seq<Descriptor>

  /** `getNumbDescs`: the number of whole records in the raw table. */
  function NumDescs(raw: bytes): nat {
    |raw| / DescSize
  }

  /** The raw bytes of record `i`, as `getDesc` slices them: short or empty past the end. */
  function RawDesc(raw: bytes, i: nat): bytes {
    Slice(raw, DescSize * i, DescSize * i + DescSize)
  }

  /** Decode every record of the raw table. */
  function ParseTable(raw: bytes): (t: Table)
    ensures |t| == NumDescs(raw) + (if |raw| % DescSize == 0 then 0 else 1)
    ensures forall i :: 0 <= i < |t| ==> t[i] == ParseDesc(RawDesc(raw, i)) && Fits(t[i])
  {
    var n := NumDescs(raw) + (if |raw| % DescSize == 0 then 0 else 1);
    seq(n, i requires 0 <= i < n => ParseDesc(RawDesc(raw, i)))
  }

  /** Record `i`; all zero past the end of the table. */
  function Get(t: Table, i: nat): Descriptor {
    if i < |t| then t[i] else Zero
  }

  /** Every index reads, from the decoded table, what `getDesc` reads from its byte slice. */
  lemma GetParsed(raw: bytes, i: nat)
    ensures Get(ParseTable(raw), i) == ParseDesc(RawDesc(raw, i))
  {
    var t := ParseTable(raw);
    if i >= |t| {
      assert DescSize * i >= |raw|;
      assert RawDesc(raw, i) == [];
    }
  }

  predicate Valid(t: Table) {
    forall i :: 0 <= i < |t| ==> Fits(t[i])
  }

  lemma GetFits(t: Table, i: nat)
    requires Valid(t)
    ensures Fits(Get(t, i))
  {
  }

  /**
    The number of hops every walk and resolution is allowed: one more than
    the records in the table, plus the start. A pointer past the table lands
    on an all-zero record, so an acyclic walk never needs more.
   */
  function Bound(t: Table): nat {
    |t| + 2
  }

  function DescType(t: Table, i: nat): nat { Get(t, i).descType }
  /** `getCamera`: the camera byte is an ASCII digit counted from 1. */
  function Camera(t: Table, i: nat): int { Get(t, i).cameraByte - 48 + 1 }
  function CountField(t: Table, i: nat): nat { Get(t, i).count }
  function BeginStamp(t: Table, i: nat): nat { Get(t, i).beginStamp }
  function EndStamp(t: Table, i: nat): nat { Get(t, i).endStamp }
  function Next(t: Table, i: nat): nat { Get(t, i).next }
  function LastBlocks(t: Table, i: nat): nat { Get(t, i).lastBlocks }
  function Prev(t: Table, i: nat): nat { Get(t, i).prev }
  function Begin(t: Table, i: nat): nat { Get(t, i).begin }

  /** `getFragNumber`: 0 on a Main descriptor. */
  function FragNumber(t: Table, i: nat): nat {
    if DescType(t, i) == MainType then 0 else CountField(t, i)
  }

  // ---------------------------------------------------------------------
  // Resolution of the values a Main descriptor holds for its whole chain

  /**
    The descriptor reached from `i` by following `begin` until a Main
    descriptor, taking at most `fuel` hops (`None` when they run out).
   */
  function MainOf(t: Table, i: nat, fuel: nat): (r: Option<nat>)
    decreases fuel
    ensures r.Some? ==> DescType(t, r.value) == MainType
    ensures DescType(t, i) == MainType ==> r == Some(i)
    ensures r.None? ==> DescType(t, i) != MainType
  {
    if DescType(t, i) == MainType then Some(i)
    else if fuel == 0 then None
    else MainOf(t, Begin(t, i), fuel - 1)
  }

  /** More hops never change a resolution that succeeded. */
  lemma {:induction false} MainOfFuel(t: Table, i: nat, fuel: nat, more: nat)
    requires MainOf(t, i, fuel).Some? && fuel <= more
    ensures MainOf(t, i, more) == MainOf(t, i, fuel)
    decreases fuel
  {
    if DescType(t, i) != MainType {
      MainOfFuel(t, Begin(t, i), fuel - 1, more - 1);
    }
  }

  /**
    `getNumberFrags`: the count field plus one on a Main descriptor; any
    other descriptor answers with the value at its `begin` index. The answer
    is the one held by the Main descriptor that `MainOf` reaches.
   */
  function NumberFrags(t: Table, i: nat, fuel: nat): (r: Option<nat>)
    decreases fuel
    ensures r.Some? <==> MainOf(t, i, fuel).Some?
    ensures r.Some? ==> r.value == CountField(t, MainOf(t, i, fuel).value) + 1
    ensures r.Some? && Valid(t) ==> 1 <= r.value <= 0x1_0000
  {
    if DescType(t, i) == MainType then
      Some(CountField(t, i) + 1)
    else if fuel == 0 then None
    else NumberFrags(t, Begin(t, i), fuel - 1)
  }

  /**
    `getLastFragSize`: the last-fragment field in blocks, scaled by the
    block size, on a Main descriptor; otherwise the value at `begin`.
   */
  function LastFragSize(t: Table, blockSize: nat, i: nat, fuel: nat): (r: Option<nat>)
    decreases fuel
    ensures r.Some? <==> MainOf(t, i, fuel).Some?
    ensures r.Some? ==> r.value == LastBlocks(t, MainOf(t, i, fuel).value) * blockSize
  {
    if DescType(t, i) == MainType then Some(LastBlocks(t, i) * blockSize)
    else if fuel == 0 then None
    else LastFragSize(t, blockSize, Begin(t, i), fuel - 1)
  }

  /**
    `getSlackSize`: the part of the last fragment after its data, resolved
    like the other chain values. It is negative when the recorded last size
    exceeds the fragment size.
   */
  function SlackSize(t: Table, blockSize: nat, fragSize: nat, i: nat, fuel: nat): (r: Option<int>)
    decreases fuel
    ensures r.Some? <==> LastFragSize(t, blockSize, i, fuel).Some?
    ensures r.Some? ==> r.value + LastFragSize(t, blockSize, i, fuel).value == fragSize
  {
    if DescType(t, i) == MainType then
      Some(fragSize - LastFragSize(t, blockSize, i, fuel).value)
    else if fuel == 0 then None
    else SlackSize(t, blockSize, fragSize, Begin(t, i), fuel - 1)
  }

  /** `getVideoSize`: all declared fragments but the last at full size, then the last one. */
  function VideoSize(t: Table, blockSize: nat, fragSize: nat, i: nat, fuel: nat): (r: Option<int>)
    ensures r.Some? <==> MainOf(t, i, fuel).Some?
    ensures r.Some? ==> var m := MainOf(t, i, fuel).value;
      r.value == CountField(t, m) * fragSize + LastBlocks(t, m) * blockSize
  {
    match (NumberFrags(t, i, fuel), LastFragSize(t, blockSize, i, fuel))
    case (Some(n), Some(last)) => Some((n - 1) * fragSize + last)
    case _ => None
  }

  /**
    A Continuation whose `begin` names a Main descriptor resolves to that
    descriptor's values in one hop.
   */
  lemma OneHopResolution(t: Table, blockSize: nat, fragSize: nat, i: nat, fuel: nat)
    requires DescType(t, i) != MainType && DescType(t, Begin(t, i)) == MainType && fuel >= 1
    ensures NumberFrags(t, i, fuel) == Some(CountField(t, Begin(t, i)) + 1)
    ensures LastFragSize(t, blockSize, i, fuel) == Some(LastBlocks(t, Begin(t, i)) * blockSize)
    ensures SlackSize(t, blockSize, fragSize, i, fuel) == Some(fragSize - LastBlocks(t, Begin(t, i)) * blockSize)
  {
  }

  /**
    `p` is the path the recursion of `getNumberFrags` takes from `i`: each element the
    `begin` of the one before, none of them Main but the last.
   */
  ghost predicate IsBeginPath(t: Table, i: nat, p: seq<nat>) {
    && |p| > 0 && p[0] == i && DescType(t, p[|p| - 1]) == MainType
    && (forall k :: 0 <= k < |p| - 1 ==> DescType(t, p[k]) != MainType && p[k + 1] == Begin(t, p[k]))
  }

  /** A path that fits in the fuel is what the resolution follows, to the path's end. */
  lemma {:induction false} MainOfComplete(t: Table, i: nat, p: seq<nat>, fuel: nat)
    requires IsBeginPath(t, i, p) && |p| <= fuel + 1
    ensures MainOf(t, i, fuel) == Some(p[|p| - 1])
    decreases |p|
  {
    if |p| > 1 {
      var rest := p[1..];
      assert DescType(t, p[0]) != MainType && rest[0] == Begin(t, i);
      forall k | 0 <= k < |rest| - 1
        ensures DescType(t, rest[k]) != MainType && rest[k + 1] == Begin(t, rest[k])
      {
        assert rest[k] == p[k + 1] && rest[k + 1] == p[k + 2];
      }
      MainOfComplete(t, Begin(t, i), rest, fuel - 1);
    }
  }

  /** A resolution fails only when every path from `i` is longer than the fuel allows. */
  lemma MainOfFailure(t: Table, i: nat, fuel: nat)
    requires MainOf(t, i, fuel).None?
    ensures forall p :: IsBeginPath(t, i, p) ==> |p| > fuel + 1
  {
    forall p | IsBeginPath(t, i, p)
      ensures |p| > fuel + 1
    {
      if |p| <= fuel + 1 {
        MainOfComplete(t, i, p, fuel);
      }
    }
  }

  /** A path to a Main descriptor never revisits a descriptor. */
  lemma BeginPathDistinct(t: Table, i: nat, p: seq<nat>)
    requires IsBeginPath(t, i, p)
    ensures Distinct(p)
  {
    forall a, b | 0 <= a < b < |p|
      ensures p[a] != p[b]
    {
      var m := 0;
      while b + m < |p| - 1
        invariant 0 <= m && b + m <= |p| - 1
        invariant p[a] == p[b] ==> p[a + m] == p[b + m]
      {
        assert p[a + m + 1] == Begin(t, p[a + m]) && p[b + m + 1] == Begin(t, p[b + m]);
        m := m + 1;
      }
      assert DescType(t, p[a + m]) != MainType && DescType(t, p[b + m]) == MainType;
    }
  }

  /**
    A path has at most one descriptor more than the table: a record past the
    end is not Main and has `begin` 0, so at most one element lies outside.
   */
  lemma BeginPathLength(t: Table, i: nat, p: seq<nat>)
    requires IsBeginPath(t, i, p)
    ensures |p| <= |t| + 1
  {
    BeginPathDistinct(t, i, p);
    var s := seq(|p|, k requires 0 <= k < |p| => if p[k] < |t| then p[k] else |t|);
    forall a, b | 0 <= a < b < |p|
      ensures s[a] != s[b]
    {
      if p[a] >= |t| {
        assert a < |p| - 1 && p[a + 1] == 0;
        if b < |p| - 1 {
          assert p[b + 1] == Begin(t, p[b]) && p[a + 1] != p[b + 1];
        }
      }
    }
    forall x | x in s
      ensures x in Range(|t| + 1)
    {
      var k :| 0 <= k < |s| && s[k] == x;
      assert Range(|t| + 1)[x] == x;
    }
    DistinctCovered(s, Range(|t| + 1));
  }

  /** So the bound `Bound(t)` reaches every Main descriptor a path leads to; it fails only on a cycle. */
  lemma MainOfBoundSuffices(t: Table, i: nat, p: seq<nat>)
    requires IsBeginPath(t, i, p)
    ensures MainOf(t, i, Bound(t)) == Some(p[|p| - 1])
  {
    BeginPathLength(t, i, p);
    MainOfComplete(t, i, p, Bound(t));
  }

  // ---------------------------------------------------------------------
  // Chains

  /** A `next` value that ends a walk. */
  predicate IsLinkEnd(x: nat) {
    x == 0 || x == EndOfChain
  }

  /**
    `c` is the chain that starts at `start`: empty exactly when `start` is
    an end marker, otherwise `start` followed by successive `next` values,
    none of them an end marker, up to a descriptor whose `next` is one.
   */
  ghost predicate IsChain(t: Table, start: nat, c: seq<nat>) {
    && (|c| == 0 <==> IsLinkEnd(start))
    && (|c| > 0 ==> c[0] == start && IsLinkEnd(Next(t, c[|c| - 1])))
    && (forall k :: 0 <= k < |c| ==> !IsLinkEnd(c[k]))
    && (forall k :: 0 <= k < |c| - 1 ==> c[k + 1] == Next(t, c[k]))
  }

  /**
    `getFragsInVideo`: collect indices along `next` until 0 or 0xFFFFFFFF,
    visiting at most `fuel` descriptors (`None` when that is not enough).
    The declared fragment count plays no part: a longer walk is kept whole.
   */
  function Walk(t: Table, i: nat, fuel: nat): (r: Option<seq<nat>>)
    decreases fuel
    ensures r.Some? ==> IsChain(t, i, r.value) && |r.value| <= fuel
  {
    if IsLinkEnd(i) then Some([])
    else if fuel == 0 then None
    else
      match Walk(t, Next(t, i), fuel - 1)
      case None => None
      case Some(c) => Some([i] + c)
  }

  /** Every chain within the bound is found by the walk. */
  lemma {:induction false} WalkComplete(t: Table, i: nat, c: seq<nat>, fuel: nat)
    requires IsChain(t, i, c) && |c| <= fuel
    ensures Walk(t, i, fuel) == Some(c)
    decreases |c|
  {
    if |c| > 0 {
      var rest := c[1..];
      assert IsChain(t, Next(t, i), rest) by {
        if |rest| > 0 {
          assert rest[0] == c[1] == Next(t, c[0]);
        }
      }
      WalkComplete(t, Next(t, i), rest, fuel - 1);
      assert c == [i] + rest;
    }
  }

  /** A start has at most one chain. */
  lemma ChainUnique(t: Table, i: nat, c1: seq<nat>, c2: seq<nat>)
    requires IsChain(t, i, c1) && IsChain(t, i, c2)
    ensures c1 == c2
  {
    var fuel := |c1| + |c2|;
    WalkComplete(t, i, c1, fuel);
    WalkComplete(t, i, c2, fuel);
    var w := Walk(t, i, fuel);
    assert w == Some(c1) && w == Some(c2);
    assert w.value == c1 && w.value == c2;
  }

  /** A walk that runs out of fuel means no chain of at most `fuel` descriptors exists. */
  lemma WalkFailure(t: Table, i: nat, fuel: nat)
    requires Walk(t, i, fuel).None?
    ensures forall c :: IsChain(t, i, c) ==> |c| > fuel
  {
    forall c | IsChain(t, i, c)
      ensures |c| > fuel
    {
      if |c| <= fuel {
        WalkComplete(t, i, c, fuel);
      }
    }
  }

  /** A chain never revisits a descriptor: the walk is deterministic and must end. */
  lemma ChainDistinct(t: Table, i: nat, c: seq<nat>)
    requires IsChain(t, i, c)
    ensures Distinct(c)
  {
    forall a, b | 0 <= a < b < |c|
      ensures c[a] != c[b]
    {
      var m := 0;
      while b + m < |c| - 1
        invariant 0 <= m && b + m <= |c| - 1
        invariant c[a] == c[b] ==> c[a + m] == c[b + m]
      {
        assert c[a + m + 1] == Next(t, c[a + m]) && c[b + m + 1] == Next(t, c[b + m]);
        m := m + 1;
      }
      assert c[a + m + 1] == Next(t, c[a + m]) && !IsLinkEnd(c[a + m + 1]);
    }
  }

  /** The indices `0 .. n-1`. */
  function Range(n: nat): (r: seq<nat>)
    ensures |r| == n && forall k :: 0 <= k < n ==> r[k] == k
  {
    seq(n, k requires 0 <= k < n => k)
  }

  /**
    Every chain has at most one descriptor more than the table: all but its
    last element lie inside the table, since a record past the end has
    `next` 0.
   */
  lemma ChainLength(t: Table, i: nat, c: seq<nat>)
    requires IsChain(t, i, c)
    ensures |c| <= |t| + 1
  {
    if |c| > 0 {
      var body := c[..|c| - 1];
      ChainDistinct(t, i, c);
      forall x | x in body
        ensures x in Range(|t|)
      {
        var k :| 0 <= k < |body| && body[k] == x;
        assert c[k + 1] == Next(t, c[k]);
        assert Range(|t|)[x] == x;
      }
      DistinctCovered(body, Range(|t|));
    }
  }

  /** So the walk bound `Bound(t)` finds every chain there is; it fails only on a cycle. */
  lemma WalkBoundSuffices(t: Table, i: nat, c: seq<nat>)
    requires IsChain(t, i, c)
    ensures Walk(t, i, Bound(t)) == Some(c)
  {
    ChainLength(t, i, c);
    WalkComplete(t, i, c, Bound(t));
  }

  /**
    The walk reads nothing but `next` fields: rewriting the declared
    fragment count of any descriptor leaves every chain as it was.
   */
  lemma {:induction false} WalkIgnoresDeclaredCount(t: Table, m: nat, x: nat, i: nat, fuel: nat)
    requires m < |t|
    ensures Walk(t[m := t[m].(count := x)], i, fuel) == Walk(t, i, fuel)
    decreases fuel
  {
    var u := t[m := t[m].(count := x)];
    assert Next(u, i) == Next(t, i);
    if !IsLinkEnd(i) && fuel > 0 {
      WalkIgnoresDeclaredCount(t, m, x, Next(t, i), fuel - 1);
    }
  }

  /**
    `getLastDesc`: follow `next` until it is 0, at most `fuel` hops. Unlike
    the walk it does not stop at 0xFFFFFFFF.
   */
  function LastDesc(t: Table, i: nat, fuel: nat): (r: Option<nat>)
    decreases fuel
    ensures r.Some? ==> Next(t, r.value) == 0
  {
    if Next(t, i) == 0 then Some(i)
    else if fuel == 0 then None
    else LastDesc(t, Next(t, i), fuel - 1)
  }

  /** On a chain that ends with `next == 0`, `LastDesc` finds the chain's last element. */
  lemma {:induction false} LastDescEndsWalk(t: Table, i: nat, fuel: nat)
    requires Walk(t, i, fuel).Some? && |Walk(t, i, fuel).value| > 0
    requires var c := Walk(t, i, fuel).value; Next(t, c[|c| - 1]) == 0
    ensures var c := Walk(t, i, fuel).value; LastDesc(t, i, fuel) == Some(c[|c| - 1])
    decreases fuel
  {
    var c := Walk(t, i, fuel).value;
    var n := Next(t, i);
    if n != 0 {
      var rest := Walk(t, n, fuel - 1).value;
      assert c == [i] + rest;
      LastDescEndsWalk(t, n, fuel - 1);
    }
  }

  /**
    Where the walk stops at a `next` of 0xFFFFFFFF, `LastDesc` steps on to
    that index, which lies past any table of fewer than 2^32 - 1 records,
    and answers with it.
   */
  lemma LastDescCrossesEndMarker(t: Table, i: nat, fuel: nat)
    requires Next(t, i) == EndOfChain && fuel >= 1 && |t| <= EndOfChain
    ensures Walk(t, i, fuel + 1) == if IsLinkEnd(i) then Some([]) else Some([i])
    ensures LastDesc(t, i, fuel) == Some(EndOfChain)
  {
    if !IsLinkEnd(i) {
      assert Walk(t, EndOfChain, fuel) == Some([]);
      assert Walk(t, i, fuel + 1) == Some([i] + []);
      assert [i] + [] == [i];
    }
  }

  // ---------------------------------------------------------------------
  // Classification scans over 0 .. n-1

  /** The indices below `n` satisfying `p`, in ascending order. */
  function Select(n: nat, p: nat -> bool): (r: seq<nat>)
    ensures forall k :: 0 <= k < |r| ==> r[k] < n && p(r[k])
    ensures forall i :: 0 <= i < n && p(i) ==> i in r
    ensures forall a, b :: 0 <= a < b < |r| ==> r[a] < r[b]
  {
    if n == 0 then [] else Select(n - 1, p) + (if p(n - 1) then [n - 1] else [])
  }

  /** A Main descriptor whose timestamps differ: a recorded video, not an empty slot. */
  predicate IsLiveMain(t: Table, i: nat) {
    DescType(t, i) == MainType && BeginStamp(t, i) != EndStamp(t, i)
  }

  /** `getMainDescs`. */
  function MainDescs(t: Table, n: nat): (r: seq<nat>)
    ensures forall k :: 0 <= k < |r| ==> r[k] < n && IsLiveMain(t, r[k])
    ensures forall i :: 0 <= i < n && IsLiveMain(t, i) ==> i in r
    ensures forall a, b :: 0 <= a < b < |r| ==> r[a] < r[b]
  {
    Select(n, (i: nat) => IsLiveMain(t, i))
  }

  /**
    Every start that `loadDescs` walks is a live Main descriptor, so the
    fragment count `getFragsInVideo` resolves first is always defined there.
   */
  lemma MainDescsCountResolves(t: Table, n: nat, fuel: nat)
    ensures forall k :: 0 <= k < |MainDescs(t, n)| ==> NumberFrags(t, MainDescs(t, n)[k], fuel).Some?
  {
  }

  /** `getFreeDescs`. */
  function FreeDescs(t: Table, n: nat): (r: seq<nat>)
    ensures forall k :: 0 <= k < |r| ==> r[k] < n && DescType(t, r[k]) == FreeType
    ensures forall i :: 0 <= i < n && DescType(t, i) == FreeType ==> i in r
    ensures forall a, b :: 0 <= a < b < |r| ==> r[a] < r[b]
  {
    Select(n, (i: nat) => DescType(t, i) == FreeType)
  }

  /** The chain recorded for Main index `m`, empty when there is none. */
  function ChainOf(videos: map<nat, seq<nat>>, m: nat): seq<nat> {
    if m in videos then videos[m] else []
  }

  /** A Continuation descriptor missing from the live chain of its own `begin` index. */
  predicate IsDirty(t: Table, videos: map<nat, seq<nat>>, i: nat) {
    DescType(t, i) == ContinuationType && i !in ChainOf(videos, Begin(t, i))
  }

  /** `getDirtyDescs`, given the live chains already linked to their Main descriptors. */
  function DirtyDescs(t: Table, n: nat, videos: map<nat, seq<nat>>): (r: seq<nat>)
    ensures forall k :: 0 <= k < |r| ==> r[k] < n && IsDirty(t, videos, r[k])
    ensures forall i :: 0 <= i < n && IsDirty(t, videos, i) ==> i in r
    ensures forall a, b :: 0 <= a < b < |r| ==> r[a] < r[b]
  {
    Select(n, (i: nat) => IsDirty(t, videos, i))
  }

  /** What the scans make of one descriptor. */
  datatype Class = LiveVideo | EmptySlot | Free | Linked | Dirty | OtherType

  function ClassOf(t: Table, videos: map<nat, seq<nat>>, i: nat): Class {
    var ty := DescType(t, i);
    if ty == FreeType then Free
    else if ty == MainType then (if BeginStamp(t, i) != EndStamp(t, i) then LiveVideo else EmptySlot)
    else if ty == ContinuationType then (if i in ChainOf(videos, Begin(t, i)) then Linked else Dirty)
    else OtherType
  }

  /**
    Every index below `n` gets exactly one class, and the three scans list
    exactly the indices of their class; so no index is in two of them.
   */
  lemma ScansClassify(t: Table, n: nat, videos: map<nat, seq<nat>>, i: nat)
    requires i < n
    ensures i in MainDescs(t, n) <==> ClassOf(t, videos, i) == LiveVideo
    ensures i in FreeDescs(t, n) <==> ClassOf(t, videos, i) == Free
    ensures i in DirtyDescs(t, n, videos) <==> ClassOf(t, videos, i) == Dirty
  {
  }

  /** The three scans are pairwise disjoint. */
  lemma ScansDisjoint(t: Table, n: nat, videos: map<nat, seq<nat>>)
    ensures forall i :: i in MainDescs(t, n) ==> i !in FreeDescs(t, n) && i !in DirtyDescs(t, n, videos)
    ensures forall i :: i in FreeDescs(t, n) ==> i !in DirtyDescs(t, n, videos)
  {
  }

  /** How many of the first `n` descriptors have type `ty`. */
  function CountType(t: Table, n: nat, ty: nat): nat {
    if n == 0 then 0 else CountType(t, n - 1, ty) + (if DescType(t, n - 1) == ty then 1 else 0)
  }

  /** `getDescTypes`: how many descriptors below `n` carry each type byte that occurs. */
  function DescTypes(t: Table, n: nat): (m: map<nat, nat>)
    ensures forall ty :: ty in m <==> CountType(t, n, ty) > 0
    ensures forall ty :: ty in m ==> m[ty] == CountType(t, n, ty)
  {
    if n == 0 then map[]
    else
      var m := DescTypes(t, n - 1);
      var ty := DescType(t, n - 1);
      m[ty := (if ty in m then m[ty] else 0) + 1]
  }

  /** The counts held in `m` for the keys below `k`. */
  function SumBelow(m: map<nat, nat>, k: nat): nat {
    if k == 0 then 0 else SumBelow(m, k - 1) + (if k - 1 in m then m[k - 1] else 0)
  }

  function CountBelow(t: Table, n: nat, k: nat): nat {
    if k == 0 then 0 else CountBelow(t, n, k - 1) + CountType(t, n, k - 1)
  }

  lemma {:induction false} CountBelowStep(t: Table, n: nat, k: nat)
    ensures CountBelow(t, n + 1, k) == CountBelow(t, n, k) + (if DescType(t, n) < k then 1 else 0)
  {
    if k > 0 {
      CountBelowStep(t, n, k - 1);
    }
  }

  lemma {:induction false} CountBelowNone(t: Table, k: nat)
    ensures CountBelow(t, 0, k) == 0
  {
    if k > 0 {
      CountBelowNone(t, k - 1);
    }
  }

  lemma {:induction false} CountBelowAll(t: Table, n: nat)
    requires Valid(t)
    ensures CountBelow(t, n, 0x100) == n
  {
    if n == 0 {
      CountBelowNone(t, 0x100);
    } else {
      CountBelowAll(t, n - 1);
      CountBelowStep(t, n - 1, 0x100);
      GetFits(t, n - 1);
    }
  }

  lemma {:induction false} SumBelowCounts(t: Table, n: nat, k: nat)
    ensures SumBelow(DescTypes(t, n), k) == CountBelow(t, n, k)
  {
    if k > 0 {
      SumBelowCounts(t, n, k - 1);
    }
  }

  /** The type counts add up to the number of descriptors scanned. */
  lemma DescTypesTotal(t: Table, n: nat)
    requires Valid(t)
    ensures SumBelow(DescTypes(t, n), 0x100) == n
    ensures forall ty :: ty in DescTypes(t, n) ==> ty < 0x100
  {
    SumBelowCounts(t, n, 0x100);
    CountBelowAll(t, n);
    forall ty | ty in DescTypes(t, n)
      ensures ty < 0x100
    {
      TypeCountedIsByte(t, n, ty);
    }
  }

  lemma {:induction false} TypeCountedIsByte(t: Table, n: nat, ty: nat)
    requires Valid(t) && CountType(t, n, ty) > 0
    ensures ty < 0x100
  {
    GetFits(t, n - 1);
    if DescType(t, n - 1) != ty {
      TypeCountedIsByte(t, n - 1, ty);
    }
  }

  /**
    The live chains of the Main descriptors in `mains` (the
    `fragsInVideos` map), each walked with `fuel`; `None` when some walk
    runs out of fuel.
   */
  function LinkVideos(t: Table, mains: seq<nat>, fuel: nat): (r: Option<map<nat, seq<nat>>>)
    ensures r.Some? ==> r.value.Keys == set j | j in mains
    ensures r.Some? ==> forall m :: m in r.value ==> Walk(t, m, fuel) == Some(r.value[m])
    ensures r.None? <==> exists k :: 0 <= k < |mains| && Walk(t, mains[k], fuel).None?
  {
    if |mains| == 0 then Some(map[])
    else
      var m := mains[|mains| - 1];
      match (LinkVideos(t, mains[..|mains| - 1], fuel), Walk(t, m, fuel))
      case (Some(vs), Some(c)) =>
        assert forall j :: j in mains <==> j in mains[..|mains| - 1] || j == m;
        Some(vs[m := c])
      case _ =>
        assert forall k :: 0 <= k < |mains| - 1 ==> mains[..|mains| - 1][k] == mains[k];
        None
  }
}

=== FILE: export.dfy ===
/**
  The byte layout of an exported video (`saveVideoAt`) and of a slack
  extract (`saveSlackAt`), taken from the live chain recorded for a Main
  descriptor.
 */
module Export {
  import opened Bytes
  import opened Outcomes
  import opened Descriptors
  import opened Fragments

  function Last(chain: seq<nat>): nat
    requires |chain| > 0
  {
    chain[|chain| - 1]
  }

  /**
    The bytes written for a chain: every fragment but the last in full, then
    the data part of the last. An empty chain fails where `saveVideoAt` indexes
    its first element.
   */
  function VideoBytes(v: Volume, chain: seq<nat>): (r: Result<bytes>)
    ensures |chain| == 0 ==> r == Failure(EmptyChain)
    ensures |chain| > 0 ==> (r.Success? <==> LastSize(v, Last(chain)).Some?)
    ensures r.Failure? && |chain| > 0 ==> r.error == MalformedChain
  {
    if |chain| == 0 then Failure(EmptyChain)
    else
      match ReadLastFrag(v, Last(chain))
      case None => Failure(MalformedChain)
      case Some(tail) => Success(Concat(FragBytes(v, chain[..|chain| - 1])) + tail)
  }

  /** Every fragment of the chain lies on the medium, the last one also with its recorded data size. */
  predicate ChainOnDisk(v: Volume, chain: seq<nat>) {
    && FragsOnDisk(v, chain)
    && (|chain| > 0 && LastSize(v, Last(chain)).Some? ==>
          FragStart(v, Last(chain)) + LastSize(v, Last(chain)).value <= |v.disk|)
  }

  /**
    On the medium, an exported video is `(|chain| - 1) * fragSize + lastFragSize`
    bytes long and ends with the leading `lastFragSize` bytes of the last fragment.
   */
  lemma VideoLayout(v: Volume, chain: seq<nat>)
    requires |chain| > 0 && LastSize(v, Last(chain)).Some? && ChainOnDisk(v, chain)
    ensures var r := VideoBytes(v, chain).value; var n, f := |chain|, v.fragSize;
      && |r| == (n - 1) * f + LastSize(v, Last(chain)).value
      && r[(n - 1) * f ..] == v.disk[FragStart(v, Last(chain)) .. FragStart(v, Last(chain)) + LastSize(v, Last(chain)).value]
  {
    var parts := FragBytes(v, chain[..|chain| - 1]);
    PartsThenTail(parts, ReadLastFrag(v, Last(chain)).value, v.fragSize);
  }

  /** Fragment `k` of the chain, other than the last, is exported whole at offset `k * fragSize`. */
  lemma VideoFragmentAt(v: Volume, chain: seq<nat>, k: nat)
    requires |chain| > 0 && LastSize(v, Last(chain)).Some? && ChainOnDisk(v, chain)
    requires k < |chain| - 1
    ensures var r := VideoBytes(v, chain).value; var f := v.fragSize;
      && k * f + f <= |r|
      && r[k * f .. k * f + f] == v.disk[FragStart(v, chain[k]) .. FragStart(v, chain[k]) + f]
  {
    var parts := FragBytes(v, chain[..|chain| - 1]);
    assert OnDisk(v, chain[k]);
    PartThenTailAt(parts, ReadLastFrag(v, Last(chain)).value, v.fragSize, k);
  }

  /**
    On the medium, the exported bytes are every fragment of the chain but
    the last read whole and laid back to back, then the last one's data.
   */
  lemma VideoBlocks(v: Volume, chain: seq<nat>)
    ensures |chain| > 0 && LastSize(v, Last(chain)).Some? && ChainOnDisk(v, chain) ==>
      var r, n, f := VideoBytes(v, chain).value, |chain|, v.fragSize;
      && |r| == (n - 1) * f + LastSize(v, Last(chain)).value
      && LaidOut(v, chain[..n - 1], r[..(n - 1) * f])
      && r[(n - 1) * f ..] == ReadLastFrag(v, Last(chain)).value
  {
    if |chain| > 0 && LastSize(v, Last(chain)).Some? && ChainOnDisk(v, chain) {
      var n, f := |chain|, v.fragSize;
      var parts := FragBytes(v, chain[..n - 1]);
      var tail := ReadLastFrag(v, Last(chain)).value;
      assert VideoBytes(v, chain).value == Concat(parts) + tail;
      assert FragsOnDisk(v, chain[..n - 1]);
      ConcatLaidOut(v, chain[..n - 1]);
      FragBytesOnDisk(v, chain[..n - 1]);
      PartsThenTail(parts, tail, f);
      assert (Concat(parts) + tail)[..(n - 1) * f] == Concat(parts);
    }
  }

  /**
    `saveVideoAt`: the video of Main descriptor `d`, whose chain is looked
    up in `videos`. The fragment count of `d` is resolved first, for the
    file name, so a `begin` path that does not end fails before the lookup.
    A linked video whose last size resolves is exported; on the medium it
    is every fragment of the chain but the last read whole, in chain order,
    followed by the data of the last fragment.
   */
  function ExportVideo(v: Volume, videos: map<nat, seq<nat>>, d: nat): (r: Result<bytes>)
    ensures NumberFrags(v.table, d, Bound(v.table)).None? ==> r == Failure(MalformedChain)
    ensures NumberFrags(v.table, d, Bound(v.table)).Some? ==>
      && (d !in videos ==> r == Failure(NotAVideo))
      && (d in videos && |videos[d]| == 0 ==> r == Failure(EmptyChain))
      && (d in videos && |videos[d]| > 0 ==> (r.Success? <==> LastSize(v, Last(videos[d])).Some?))
      && (d in videos ==> r == VideoBytes(v, videos[d]))
    ensures r.Success? ==> d in videos && |videos[d]| > 0
    ensures r.Success? && ChainOnDisk(v, videos[d]) ==>
      var chain, f := videos[d], v.fragSize; var n := |chain|;
      && |r.value| == (n - 1) * f + LastSize(v, Last(chain)).value
      && LaidOut(v, chain[..n - 1], r.value[..(n - 1) * f])
      && r.value[(n - 1) * f ..] == ReadLastFrag(v, Last(chain)).value
  {
    if NumberFrags(v.table, d, Bound(v.table)).None? then Failure(MalformedChain)
    else if d !in videos then Failure(NotAVideo)
    else
      VideoBlocks(v, videos[d]);
      VideoBytes(v, videos[d])
  }

  /**
    When the last fragment of a video's chain resolves back to the video's
    Main descriptor, the export length follows the walked chain; it equals
    `getVideoSize` exactly when the walk has the declared number of fragments.
   */
  lemma ExportLength(v: Volume, videos: map<nat, seq<nat>>, d: nat)
    requires d in videos && |videos[d]| > 0 && DescType(v.table, d) == MainType
    requires MainOf(v.table, Last(videos[d]), Bound(v.table)) == Some(d)
    requires ChainOnDisk(v, videos[d])
    ensures var r := ExportVideo(v, videos, d);
      && r.Success?
      && |r.value| == (|videos[d]| - 1) * v.fragSize + LastBlocks(v.table, d) * v.blockSize
      && (|r.value| == VideoSize(v.table, v.blockSize, v.fragSize, d, Bound(v.table)).value
            <== |videos[d]| == NumberFrags(v.table, d, Bound(v.table)).value)
  {
    VideoLayout(v, videos[d]);
  }

  /**
    `saveSlackAt`: nothing when the video's slack size is not positive;
    otherwise the slack of the last fragment of its chain, where the slack
    starts at the last size resolved from that fragment.
   */
  function SlackBytes(v: Volume, videos: map<nat, seq<nat>>, d: nat): (r: Result<Option<bytes>>)
    ensures var s := SlackSize(v.table, v.blockSize, v.fragSize, d, Bound(v.table));
      && (s.None? ==> r == Failure(MalformedChain))
      && (s.Some? && s.value <= 0 ==> r == Success(None))
      && (s.Some? && s.value > 0 && d !in videos ==> r == Failure(NotAVideo))
      && (s.Some? && s.value > 0 && d in videos && |videos[d]| == 0 ==> r == Failure(EmptyChain))
      && (s.Some? && s.value > 0 && d in videos && |videos[d]| > 0 ==>
            && (LastSize(v, Last(videos[d])).Some? ==> r == Success(Some(ReadSlackFrag(v, Last(videos[d])).value)))
            && (LastSize(v, Last(videos[d])).None? ==> r == Failure(MalformedChain)))
      && (r.Success? && r.value.Some? ==>
            && s.Some? && s.value > 0 && d in videos && |videos[d]| > 0
            && r.value == ReadSlackFrag(v, Last(videos[d])))
  {
    match SlackSize(v.table, v.blockSize, v.fragSize, d, Bound(v.table))
    case None => Failure(MalformedChain)
    case Some(s) =>
      if s <= 0 then Success(None)
      else if d !in videos then Failure(NotAVideo)
      else if |videos[d]| == 0 then Failure(EmptyChain)
      else
        match ReadSlackFrag(v, Last(videos[d]))
        case None => Failure(MalformedChain)
        case Some(b) => Success(Some(b))
  }

  /**
    For a video whose last fragment resolves back to its Main descriptor,
    the slack extract is the fragment's bytes after the exported data, as
    many as the slack size; the data and the slack make up the fragment.
   */
  lemma SlackLayout(v: Volume, videos: map<nat, seq<nat>>, d: nat)
    requires d in videos && |videos[d]| > 0 && DescType(v.table, d) == MainType
    requires MainOf(v.table, Last(videos[d]), Bound(v.table)) == Some(d)
    requires OnDisk(v, Last(videos[d]))
    requires SlackSize(v.table, v.blockSize, v.fragSize, d, Bound(v.table)).value > 0
    ensures var f := Last(videos[d]); var s := FragStart(v, f);
      var l := LastBlocks(v.table, d) * v.blockSize;
      && SlackBytes(v, videos, d) == Success(Some(v.disk[s + l .. s + v.fragSize]))
      && |v.disk[s + l .. s + v.fragSize]| == SlackSize(v.table, v.blockSize, v.fragSize, d, Bound(v.table)).value
      && ReadLastFrag(v, f).value + ReadSlackFrag(v, f).value == ReadFrag(v, f)
  {
    FragmentSplits(v, Last(videos[d]));
  }
}

=== FILE: fragments.dfy ===
/**
  Reading fragments of one partition's video area: a whole fragment, the
  data part of a video's last fragment, and the slack after that data.
 */
module Fragments {
  import opened Bytes
  import opened Outcomes
  import opened Descriptors

  /**
    What the export and recovery code needs of one loaded partition: the
    medium, where the partition and its video area start, the geometry
    (taken from the first partition for every partition) and the table.
   */
  datatype Volume = Volume(
    disk: bytes, base: nat, videoOffset: nat, blockSize: nat, fragSize: nat, table: Table)

  /** The absolute byte offset of fragment `f`. */
  function FragStart(v: Volume, f: nat): nat {
    v.base + v.videoOffset + f * v.fragSize
  }

  /** The fragment lies wholly on the medium. */
  predicate OnDisk(v: Volume, f: nat) {
    FragStart(v, f) + v.fragSize <= |v.disk|
  }

  /** Every fragment of `fs` lies wholly on the medium. */
  predicate FragsOnDisk(v: Volume, fs: seq<nat>) {
    forall k :: 0 <= k < |fs| ==> OnDisk(v, fs[k])
  }

  /** `readFrag`: the whole fragment, shorter only at the end of the medium. */
  function ReadFrag(v: Volume, f: nat): (r: bytes)
    ensures |r| <= v.fragSize
    ensures OnDisk(v, f) ==> r == v.disk[FragStart(v, f) .. FragStart(v, f) + v.fragSize]
  {
    Read(v.disk, FragStart(v, f), v.fragSize)
  }

  /** The contents of fragments `fs`, in order. */
  function FragBytes(v: Volume, fs: seq<nat>): (r: seq<bytes>)
    ensures |r| == |fs|
    ensures forall k :: 0 <= k < |fs| ==> r[k] == ReadFrag(v, fs[k])
  {
    seq(|fs|, k requires 0 <= k < |fs| => ReadFrag(v, fs[k]))
  }

  /**
    `b` is the fragments `fs` read whole and laid back to back, fragment `j`
    at offset `j * fragSize`, whenever they all lie on the medium.
   */
  predicate LaidOut(v: Volume, fs: seq<nat>, b: bytes) {
    FragsOnDisk(v, fs) ==>
      && |b| == |fs| * v.fragSize
      && forall j :: 0 <= j < |fs| ==>
           j * v.fragSize + v.fragSize <= |b| && b[j * v.fragSize .. j * v.fragSize + v.fragSize] == ReadFrag(v, fs[j])
  }

  /** Whole fragments read from the medium are a fragment long each. */
  lemma FragBytesOnDisk(v: Volume, fs: seq<nat>)
    requires FragsOnDisk(v, fs)
    ensures forall k :: 0 <= k < |fs| ==> |FragBytes(v, fs)[k]| == v.fragSize
  {
  }

  /** Fragments on the medium, read whole and concatenated, are laid out back to back. */
  lemma ConcatLaidOut(v: Volume, fs: seq<nat>)
    ensures LaidOut(v, fs, Concat(FragBytes(v, fs)))
  {
    if FragsOnDisk(v, fs) {
      var parts := FragBytes(v, fs);
      FragBytesOnDisk(v, fs);
      ConcatUniformLength(parts, v.fragSize);
      forall j | 0 <= j < |fs|
        ensures j * v.fragSize + v.fragSize <= |Concat(parts)|
        ensures Concat(parts)[j * v.fragSize .. j * v.fragSize + v.fragSize] == ReadFrag(v, fs[j])
      {
        ConcatUniformPart(parts, v.fragSize, j);
      }
    }
  }

  /** The last-fragment size as resolved from descriptor `f`'s own `begin` pointers. */
  function LastSize(v: Volume, f: nat): Option<nat> {
    LastFragSize(v.table, v.blockSize, f, Bound(v.table))
  }

  /**
    `readLastFrag`: the leading `lastFragSize` bytes at fragment `f`, the
    size resolved from `f` itself; `None` when the resolution does not end.
   */
  function ReadLastFrag(v: Volume, f: nat): (r: Option<bytes>)
    ensures r.Some? <==> LastSize(v, f).Some?
    ensures r.Some? ==> |r.value| <= LastSize(v, f).value
    ensures r.Some? && FragStart(v, f) + LastSize(v, f).value <= |v.disk| ==>
      r.value == v.disk[FragStart(v, f) .. FragStart(v, f) + LastSize(v, f).value]
  {
    match LastSize(v, f)
    case None => None
    case Some(n) => Some(Read(v.disk, FragStart(v, f), n))
  }

  /**
    `readSlackFrag`: from `lastFragSize` to the fragment's end. When the
    last size exceeds the fragment size the read length is negative and the
    read runs to the end of the medium.
   */
  function ReadSlackFrag(v: Volume, f: nat): (r: Option<bytes>)
    ensures r.Some? <==> LastSize(v, f).Some?
    ensures r.Some? && LastSize(v, f).value <= v.fragSize ==> |r.value| <= v.fragSize - LastSize(v, f).value
    ensures r.Some? && LastSize(v, f).value <= v.fragSize && OnDisk(v, f) ==>
      r.value == v.disk[FragStart(v, f) + LastSize(v, f).value .. FragStart(v, f) + v.fragSize]
    ensures r.Some? && LastSize(v, f).value > v.fragSize && FragStart(v, f) + LastSize(v, f).value <= |v.disk| ==>
      r.value == v.disk[FragStart(v, f) + LastSize(v, f).value ..]
  {
    match LastSize(v, f)
    case None => None
    case Some(n) => Some(Read(v.disk, FragStart(v, f) + n, v.fragSize - n))
  }

  /**
    A fragment on the medium is its data part followed by its slack, and the
    slack is as long as the resolved slack size.
   */
  lemma FragmentSplits(v: Volume, f: nat)
    requires OnDisk(v, f)
    requires LastSize(v, f).Some? && LastSize(v, f).value <= v.fragSize
    ensures ReadLastFrag(v, f).value + ReadSlackFrag(v, f).value == ReadFrag(v, f)
    ensures |ReadSlackFrag(v, f).value| == SlackSize(v.table, v.blockSize, v.fragSize, f, Bound(v.table)).value
  {
    var s, n := FragStart(v, f), LastSize(v, f).value;
    assert v.disk[s .. s + n] + v.disk[s + n .. s + v.fragSize] == v.disk[s .. s + v.fragSize];
  }
}

=== FILE: image.dfy ===
/**
  Loading an image (`loadImage`, `loadPartTable`, `loadDescs`): the magic
  check, the partition directory, the geometry of the first partition, and
  per partition its descriptor table with the linked videos and the free
  and dirty lists.
 */
module Image {
  import opened Bytes
  import opened Outcomes
  import opened Layout
  import opened Descriptors
  import opened Fragments

  /** What `loadDescs` keeps of one partition. */
  datatype PartitionView = PartitionView(
    volume: Volume,
    info: TableInfo,
    mains: seq<nat>,
    videos: map<nat, seq<nat>>,
    free: seq<nat>,
    dirty: seq<nat>)

  /** A loaded image. */
  datatype Loaded = Loaded(geometry: Geometry, partitions: seq<Partition>, views: seq<PartitionView>)

  /**
    The table of partition `p`: its fields at 0x44 are read at the first
    partition's superblock offset, and its descriptors are decoded from
    the bytes at the table offset.
   */
  function PartitionTableOf(disk: bytes, parts: seq<Partition>, g: Geometry, p: nat): (r: (TableInfo, Table))
    requires p < |parts|
    ensures r.0 == ReadTableInfo(disk, parts[p].base, parts[0].superblock, g.blockSize)
    ensures Valid(r.1) && |r.1| <= r.0.numFrags
  {
    var info := ReadTableInfo(disk, parts[p].base, parts[0].superblock, g.blockSize);
    var raw := ReadTable(disk, parts[p].base, info);
    (info, ParseTable(raw))
  }

  /**
    `loadDescs` for partition `p`: the live Main descriptors below the
    fragment count, their chains, then the free and dirty lists. A chain
    walk that does not end is `MalformedChain`.
   */
  function LoadPartition(disk: bytes, parts: seq<Partition>, g: Geometry, p: nat): (r: Result<PartitionView>)
    requires p < |parts|
    ensures r.Failure? ==> r.error == MalformedChain
    ensures r.Success? ==>
      && (r.value.info, r.value.volume.table) == PartitionTableOf(disk, parts, g, p)
      && r.value.volume == Volume(disk, parts[p].base, r.value.info.videoOffset, g.blockSize, g.fragSize, r.value.volume.table)
  {
    var (info, t) := PartitionTableOf(disk, parts, g, p);
    var n := info.numFrags;
    var mains := MainDescs(t, n);
    match LinkVideos(t, mains, Bound(t))
    case None => Failure(MalformedChain)
    case Some(videos) =>
      var v := Volume(disk, parts[p].base, info.videoOffset, g.blockSize, g.fragSize, t);
      Success(PartitionView(v, info, mains, videos, FreeDescs(t, n), DirtyDescs(t, n, videos)))
  }

  /**
    A loaded partition lists, below its fragment count, exactly the live
    Main descriptors, the Free descriptors and the dirty Continuations; each
    listed Main has its chain, and only listed Mains have one.
   */
  lemma PartitionScans(disk: bytes, parts: seq<Partition>, g: Geometry, p: nat)
    requires p < |parts| && LoadPartition(disk, parts, g, p).Success?
    ensures var view := LoadPartition(disk, parts, g, p).value;
      var t := view.volume.table;
      var n := view.info.numFrags;
      && (forall i :: 0 <= i < n ==> (i in view.mains <==> IsLiveMain(t, i)))
      && (forall i :: 0 <= i < n ==> (i in view.free <==> DescType(t, i) == FreeType))
      && (forall i :: 0 <= i < n ==> (i in view.dirty <==> IsDirty(t, view.videos, i)))
      && (forall i :: i in view.mains || i in view.free || i in view.dirty ==> i < n)
      && (forall m :: m in view.videos <==> m in view.mains)
      && (forall m :: m in view.videos ==> IsChain(t, m, view.videos[m]))
  {
  }

  /** No `next` chain from `i` ends. */
  ghost predicate Unending(t: Table, i: nat) {
    forall c :: !IsChain(t, i, c)
  }

  /** Some live Main descriptor below `n` has no `next` chain that ends. */
  ghost predicate HasUnendingVideo(t: Table, n: nat) {
    exists i :: 0 <= i < n && IsLiveMain(t, i) && Unending(t, i)
  }

  /** A chain that ends is what the walk with the table's fuel bound returns. */
  lemma ChainWalked(t: Table, i: nat, c: seq<nat>)
    ensures IsChain(t, i, c) ==> Walk(t, i, Bound(t)) == Some(c)
  {
    if IsChain(t, i, c) {
      WalkBoundSuffices(t, i, c);
    }
  }

  /** With the table's fuel bound, a walk fails exactly when no chain from its start ends. */
  lemma WalkFailsUnending(t: Table, i: nat)
    ensures Walk(t, i, Bound(t)).None? <==> Unending(t, i)
  {
    forall c
      ensures IsChain(t, i, c) ==> Walk(t, i, Bound(t)) == Some(c)
    {
      ChainWalked(t, i, c);
    }
  }

  /** Linking the live Main descriptors below `n` fails exactly when one of them has no chain that ends. */
  lemma LinkFails(t: Table, n: nat)
    ensures LinkVideos(t, MainDescs(t, n), Bound(t)).None? <==> HasUnendingVideo(t, n)
  {
    var mains := MainDescs(t, n);
    forall k | 0 <= k < |mains| {
      WalkFailsUnending(t, mains[k]);
    }
    if HasUnendingVideo(t, n) {
      var i :| 0 <= i < n && IsLiveMain(t, i) && Unending(t, i);
      var k :| 0 <= k < |mains| && mains[k] == i;
    }
  }

  /** A partition fails to load exactly when one of its live Main descriptors has no chain that ends. */
  lemma LoadPartitionFails(disk: bytes, parts: seq<Partition>, g: Geometry, p: nat)
    requires p < |parts|
    ensures LoadPartition(disk, parts, g, p).Failure? <==>
      HasUnendingVideo(PartitionTableOf(disk, parts, g, p).1, PartitionTableOf(disk, parts, g, p).0.numFrags)
  {
    var tab := PartitionTableOf(disk, parts, g, p);
    LinkFails(tab.1, tab.0.numFrags);
  }

  /** The views of all partitions; any partition whose chains do not end fails the load. */
  function LoadViews(disk: bytes, parts: seq<Partition>, g: Geometry): (r: Result<seq<PartitionView>>)
    ensures r.Success? ==> |r.value| == |parts|
    ensures r.Success? ==> forall p :: 0 <= p < |parts| ==> LoadPartition(disk, parts, g, p) == Success(r.value[p])
    ensures r.Failure? <==> exists p :: 0 <= p < |parts| && LoadPartition(disk, parts, g, p).Failure?
    ensures r.Failure? ==> r.error == MalformedChain
  {
    if exists p :: 0 <= p < |parts| && LoadPartition(disk, parts, g, p).Failure? then Failure(MalformedChain)
    else Success(seq(|parts|, p requires 0 <= p < |parts| => LoadPartition(disk, parts, g, p).value))
  }

  /** Loading the views fails exactly when some partition has a live Main descriptor whose chain does not end. */
  lemma LoadViewsFails(disk: bytes, parts: seq<Partition>, g: Geometry)
    ensures LoadViews(disk, parts, g).Failure? <==>
      exists p :: 0 <= p < |parts| &&
        HasUnendingVideo(PartitionTableOf(disk, parts, g, p).1, PartitionTableOf(disk, parts, g, p).0.numFrags)
  {
    forall p | 0 <= p < |parts| {
      LoadPartitionFails(disk, parts, g, p);
    }
  }

  /**
    `loadImage`: an image without the magic is not loaded; otherwise the
    partition directory is read, the geometry comes from the first
    partition's superblock for all of them, and every partition is loaded.
   */
  function LoadImage(disk: bytes): (r: Result<Loaded>)
    ensures !HasMagic(disk) ==> r == Failure(NotThisFilesystem)
    ensures HasMagic(disk) && PartitionTable(disk).Failure? ==> r == Failure(NoSentinel)
    ensures HasMagic(disk) && PartitionTable(disk) == Success([]) ==> r == Failure(NoPartition)
    ensures r.Success? ==>
      var img := r.value;
      && HasMagic(disk)
      && PartitionTable(disk) == Success(img.partitions)
      && |img.partitions| > 0
      && img.geometry == ReadGeometry(disk, img.partitions[0])
      && |img.views| == |img.partitions|
      && forall p :: 0 <= p < |img.views| ==>
           LoadPartition(disk, img.partitions, img.geometry, p) == Success(img.views[p])
  {
    if !HasMagic(disk) then Failure(NotThisFilesystem)
    else
      match PartitionTable(disk)
      case Failure(e) => Failure(e)
      case Success(parts) =>
        if |parts| == 0 then Failure(NoPartition)
        else
          var g := ReadGeometry(disk, parts[0]);
          match LoadViews(disk, parts, g)
          case Failure(e) => Failure(e)
          case Success(views) => Success(Loaded(g, parts, views))
  }

  /**
    Every partition of a loaded image shares the first partition's block
    and fragment sizes, and reads its table fields at the first
    partition's superblock offset.
   */
  lemma SharedGeometry(disk: bytes, p: nat)
    requires LoadImage(disk).Success? && p < |LoadImage(disk).value.views|
    ensures var img := LoadImage(disk).value;
      && img.views[p].volume.blockSize == img.geometry.blockSize
      && img.views[p].volume.fragSize == img.geometry.fragSize
      && img.views[p].volume.base == img.partitions[p].base
      && img.views[p].info == ReadTableInfo(disk, img.partitions[p].base, img.partitions[0].superblock, img.geometry.blockSize)
  {
  }

  /** A loaded partition's scans never meet, and its dirty list has no repeats. */
  lemma ViewScans(disk: bytes, p: nat)
    requires LoadImage(disk).Success? && p < |LoadImage(disk).value.views|
    ensures var view := LoadImage(disk).value.views[p];
      && (forall i :: i in view.mains ==> i !in view.free && i !in view.dirty)
      && (forall i :: i in view.free ==> i !in view.dirty)
      && (forall a, b :: 0 <= a < b < |view.dirty| ==> view.dirty[a] < view.dirty[b])
  {
    var img := LoadImage(disk).value;
    var view := img.views[p];
    var t, n := view.volume.table, view.info.numFrags;
    assert view.mains == MainDescs(t, n) && view.free == FreeDescs(t, n);
    assert view.dirty == DirtyDescs(t, n, view.videos);
    ScansDisjoint(t, n, view.videos);
  }
}

=== FILE: layout.dfy ===
/**
  The on-disk layout outside the descriptor table: the magic, the partition
  directory and the superblock fields.
 */
module Layout {
  import opened Bytes
  import opened Outcomes
  import opened Arith

  /** The ASCII text `DHFS4.1` at offset 0. */
  const Magic: bytes := [0x44, 0x48, 0x46, 0x53, 0x34, 0x2E, 0x31]

  const PartTableOffset: nat := 0x3C00
  /** The first 64-byte entry of the partition directory. */
  const DirectoryStart: nat := PartTableOffset + 0x34
  const EntrySize: nat := 64
  /** The directory counts in 512-byte blocks, whatever the superblock says. */
  const DirectoryBlock: nat := 512
  const Sentinel: bytes := [0xAA, 0x55, 0xAA, 0x55]

  /** The image is accepted when its first seven bytes are the magic. */
  predicate HasMagic(disk: bytes) {
    Read(disk, 0, 7) == Magic
  }

  /** Entry `k` of the partition directory as read from the medium (short or empty past its end). */
  function Entry(disk: bytes, k: nat): bytes {
    Read(disk, DirectoryStart + EntrySize * k, EntrySize)
  }

  predicate IsSentinel(e: bytes) {
    Slice(e, 0, 4) == Sentinel
  }

  /** A partition: the byte offset of its start and of its superblock, relative to that start. */
  datatype Partition = Partition(base: nat, superblock: nat)

  function PartitionOf(e: bytes): Partition {
    Partition(LE(Slice(e, 48, 56)) * DirectoryBlock, LE(Slice(e, 20, 24)) * DirectoryBlock)
  }

  /** No entry at or after `k` is the sentinel once entry `k` starts past the end of the medium. */
  lemma NoSentinelPastEnd(disk: bytes, k: nat)
    requires |disk| <= DirectoryStart + EntrySize * k
    ensures forall j :: k <= j ==> !IsSentinel(Entry(disk, j))
  {
    forall j | k <= j
      ensures !IsSentinel(Entry(disk, j))
    {
      assert DirectoryStart + EntrySize * k <= DirectoryStart + EntrySize * j;
      assert Entry(disk, j) == [];
    }
  }

  /**
    The directory scan from entry `k`: one partition per entry until the
    sentinel. The scan never ends when no sentinel follows (every entry past
    the end of the medium reads empty); that is reported as `NoSentinel`.
   */
  function PartitionsFrom(disk: bytes, k: nat): Result<seq<Partition>>
    decreases |disk| - (DirectoryStart + EntrySize * k)
  {
    var e := Entry(disk, k);
    if IsSentinel(e) then Success([])
    else if |disk| <= DirectoryStart + EntrySize * k then Failure(NoSentinel)
    else
      match PartitionsFrom(disk, k + 1)
      case Failure(err) => Failure(err)
      case Success(rest) => Success([PartitionOf(e)] + rest)
  }

  /** A listing that succeeds stops at a sentinel entry. */
  lemma {:induction false} PartitionsFromEnd(disk: bytes, k: nat)
    requires PartitionsFrom(disk, k).Success?
    decreases |disk| - (DirectoryStart + EntrySize * k)
    ensures IsSentinel(Entry(disk, k + |PartitionsFrom(disk, k).value|))
  {
    var e := Entry(disk, k);
    if !IsSentinel(e) {
      PartitionsFromEnd(disk, k + 1);
      var rest := PartitionsFrom(disk, k + 1).value;
      assert PartitionsFrom(disk, k).value == [PartitionOf(e)] + rest;
      assert k + |PartitionsFrom(disk, k).value| == k + 1 + |rest|;
    }
  }

  /** A listing that succeeds holds, at position `j - k`, the partition of entry `j`, which is no sentinel. */
  lemma {:induction false} PartitionsFromAt(disk: bytes, k: nat, j: nat)
    requires PartitionsFrom(disk, k).Success? && k <= j < k + |PartitionsFrom(disk, k).value|
    decreases j - k
    ensures !IsSentinel(Entry(disk, j)) && PartitionsFrom(disk, k).value[j - k] == PartitionOf(Entry(disk, j))
  {
    var e := Entry(disk, k);
    var ps := PartitionsFrom(disk, k).value;
    assert !IsSentinel(e);
    var rest := PartitionsFrom(disk, k + 1).value;
    assert ps == [PartitionOf(e)] + rest;
    if j > k {
      PartitionsFromAt(disk, k + 1, j);
      assert ps[j - k] == rest[j - (k + 1)];
    }
  }

  /** A listing fails only with `NoSentinel`, and only when no entry from `k` on is a sentinel. */
  lemma {:induction false} PartitionsFromFailure(disk: bytes, k: nat)
    requires PartitionsFrom(disk, k).Failure?
    decreases |disk| - (DirectoryStart + EntrySize * k)
    ensures PartitionsFrom(disk, k).error == NoSentinel
    ensures forall j :: k <= j ==> !IsSentinel(Entry(disk, j))
  {
    if |disk| <= DirectoryStart + EntrySize * k {
      NoSentinelPastEnd(disk, k);
    } else {
      PartitionsFromFailure(disk, k + 1);
    }
  }

  /** `loadPartTable`: the partitions, one per directory entry before the first sentinel. */
  function PartitionTable(disk: bytes): (r: Result<seq<Partition>>)
    ensures r.Success? ==>
      && IsSentinel(Entry(disk, |r.value|))
      && forall j :: 0 <= j < |r.value| ==>
           !IsSentinel(Entry(disk, j)) && r.value[j] == PartitionOf(Entry(disk, j))
    ensures r.Failure? ==> r.error == NoSentinel
    ensures r.Failure? <==> forall j :: 0 <= j ==> !IsSentinel(Entry(disk, j))
  {
    var r := PartitionsFrom(disk, 0);
    if r.Success? then
      PartitionsFromEnd(disk, 0);
      assert forall j :: 0 <= j < |r.value| ==>
        !IsSentinel(Entry(disk, j)) && r.value[j] == PartitionOf(Entry(disk, j)) by {
        forall j | 0 <= j < |r.value|
          ensures !IsSentinel(Entry(disk, j)) && r.value[j] == PartitionOf(Entry(disk, j))
        {
          PartitionsFromAt(disk, 0, j);
        }
      }
      r
    else
      PartitionsFromFailure(disk, 0);
      r
  }

  /** The geometry read from one superblock. Offsets and sizes are in bytes. */
  datatype Geometry = Geometry(
    firstDate: nat, lastDate: nat, blockSize: nat, fragSize: nat, reserved: nat, logsOffset: nat)

  /**
    The superblock fields read in `loadImage`: dates at 0x10, block size and
    fragment size in blocks at 0x2C, reserved fragments at 0x38 and the log
    region in blocks at 0xF8, all relative to `p.base + p.superblock`.
   */
  function ReadGeometry(disk: bytes, p: Partition): (g: Geometry)
    ensures g.blockSize < 0x1_0000_0000 && g.reserved < 0x1_0000_0000
    ensures g.firstDate < 0x1_0000_0000 && g.lastDate < 0x1_0000_0000
    ensures g.blockSize > 0 ==> g.fragSize % g.blockSize == 0 && g.logsOffset % g.blockSize == 0
  {
    var sb := p.base + p.superblock;
    var blk := LE32At(disk, sb + 0x2C);
    Geometry(LE32At(disk, sb + 0x10), LE32At(disk, sb + 0x14), blk,
             InBlocks(LE32At(disk, sb + 0x30), blk), LE32At(disk, sb + 0x38),
             InBlocks(LE32At(disk, sb + 0xF8), blk))
  }

  /** A count of blocks in bytes: a whole multiple of the block size. */
  function InBlocks(count: nat, blk: nat): (r: nat)
    ensures blk > 0 ==> r % blk == 0
  {
    if blk > 0 then
      MultipleMod(count, blk);
      count * blk
    else count * blk
  }

  /** A superblock holding block size `blk` and `frags` blocks per fragment reads back as such. */
  lemma GeometryReadsStored(disk: bytes, p: Partition, blk: nat, frags: nat)
    requires blk < 0x1_0000_0000 && frags < 0x1_0000_0000
    requires p.base + p.superblock + 0x34 <= |disk|
    requires disk[p.base + p.superblock + 0x2C .. p.base + p.superblock + 0x30] == ToLE(blk, 4)
    requires disk[p.base + p.superblock + 0x30 .. p.base + p.superblock + 0x34] == ToLE(frags, 4)
    ensures ReadGeometry(disk, p).blockSize == blk
    ensures ReadGeometry(disk, p).fragSize == frags * blk
  {
    assert Pow256(4) == 0x1_0000_0000;
    LEOfToLE(blk, 4);
    LEOfToLE(frags, 4);
  }

  /** Where a partition's descriptor table and video area are, and how many fragments it has. */
  datatype TableInfo = TableInfo(descOffset: nat, videoOffset: nat, numFrags: nat)

  /**
    The three consecutive fields at 0x44 read in `loadDescs`. The superblock
    offset passed in is the first partition's, whichever partition is read.
   */
  function ReadTableInfo(disk: bytes, base: nat, superblock: nat, blockSize: nat): (r: TableInfo)
    ensures r.numFrags < 0x1_0000_0000
    ensures blockSize > 0 ==> r.descOffset % blockSize == 0 && r.videoOffset % blockSize == 0
    ensures blockSize == 0 ==> r.descOffset == 0 && r.videoOffset == 0
  {
    var at := base + superblock + 0x44;
    TableInfo(InBlocks(LE32At(disk, at), blockSize), InBlocks(LE32At(disk, at + 4), blockSize), LE32At(disk, at + 8))
  }

  /** Table fields written at 0x44 read back as such, offsets scaled to bytes. */
  lemma TableInfoReadsStored(disk: bytes, base: nat, superblock: nat, blockSize: nat, desc: nat, video: nat, n: nat)
    requires desc < 0x1_0000_0000 && video < 0x1_0000_0000 && n < 0x1_0000_0000
    requires base + superblock + 0x50 <= |disk|
    requires disk[base + superblock + 0x44 .. base + superblock + 0x48] == ToLE(desc, 4)
    requires disk[base + superblock + 0x48 .. base + superblock + 0x4C] == ToLE(video, 4)
    requires disk[base + superblock + 0x4C .. base + superblock + 0x50] == ToLE(n, 4)
    ensures ReadTableInfo(disk, base, superblock, blockSize) == TableInfo(desc * blockSize, video * blockSize, n)
  {
    assert Pow256(4) == 0x1_0000_0000;
    LEOfToLE(desc, 4);
    LEOfToLE(video, 4);
    LEOfToLE(n, 4);
  }

  /** The descriptor table: `32 * numFrags` bytes at the table offset, fewer at the end of the medium. */
  function ReadTable(disk: bytes, base: nat, info: TableInfo): (r: bytes)
    ensures |r| <= 32 * info.numFrags
    ensures base + info.descOffset + 32 * info.numFrags <= |disk| ==>
      r == disk[base + info.descOffset .. base + info.descOffset + 32 * info.numFrags]
  {
    Read(disk, base + info.descOffset, 32 * info.numFrags)
  }
}

=== FILE: outcomes.dfy ===
/** Option and Result values used for the error paths of the engine. */
module Outcomes {

  datatype Option<+T> = None | Some(value: T)

  /** Why an operation of the engine produced no value. */
  datatype Error =
    | NotThisFilesystem   // the 7-byte magic is missing
    | NoSentinel          // the partition directory is never terminated
    | NoPartition         // the directory is terminated before its first entry
    | MalformedChain      // a pointer walk did not end within its bound (a cycle)
    | NotAVideo           // the index is not a key of the live-video map
    | EmptyChain          // the live chain of the video holds no fragment
    | DirtyListExhausted  // the dirty-recovery cursor ran past the end of its list

  datatype Result<+T> = Success(value: T) | Failure(error: Error)
}

=== FILE: recovery.dfy ===
/**
  The two recovery heuristics: signature carving over the free fragments
  (`saveRecAtFree`) and grouping of dirty fragments into runs that share a
  `begin` index (`saveRecAtDirty`), and their sum (`saveRecVideos`).
 */
module Recovery {
  import opened Bytes
  import opened Outcomes
  import opened Descriptors
  import opened Fragments
  import opened Counting

  // ---------------------------------------------------------------------
  // Signature carving

  /** The default signature: the bytes `DHII` at the start of a fragment. */
  const DefaultSignature: bytes := [0x44, 0x48, 0x49, 0x49]

  /** The signature pattern is anchored: it must open the first 32 bytes of the fragment. */
  predicate HasSignature(sig: bytes, frag: bytes) {
    var head := Slice(frag, 0, 32);
    |sig| <= |head| && head[..|sig|] == sig
  }

  /** Fragment `f` opens a carved file. */
  predicate StartsFile(v: Volume, sig: bytes, f: nat) {
    HasSignature(sig, ReadFrag(v, f))
  }

  /** The position of the first element of `fs` satisfying `isStart`; `|fs|` when there is none. */
  function FirstStart(fs: seq<nat>, isStart: nat -> bool): (r: nat)
    ensures r <= |fs|
    ensures forall j :: 0 <= j < r ==> !isStart(fs[j])
    ensures r < |fs| ==> isStart(fs[r])
  {
    if |fs| == 0 then 0
    else
      var k := FirstStart(fs[..|fs| - 1], isStart);
      if k < |fs| - 1 then k
      else if isStart(fs[|fs| - 1]) then |fs| - 1
      else |fs|
  }

  /** How many elements of `fs` satisfy `isStart`. */
  function CountStarts(fs: seq<nat>, isStart: nat -> bool): nat {
    if |fs| == 0 then 0
    else CountStarts(fs[..|fs| - 1], isStart) + (if isStart(fs[|fs| - 1]) then 1 else 0)
  }

  /** The carving state: the files already closed, and the one being written, if any. */
  datatype Carving = Carving(closed: seq<seq<nat>>, open: Option<seq<nat>>)

  /**
    One iteration of the loop over the free list: a signature fragment
    closes the open file and opens a new one; any other fragment is appended
    to the open file, or dropped when none is open.
   */
  function CarveStep(c: Carving, f: nat, start: bool): Carving {
    if start then
      Carving(c.closed + (if c.open.Some? then [c.open.value] else []), Some([f]))
    else if c.open.Some? then Carving(c.closed, Some(c.open.value + [f]))
    else c
  }

  /** The state after the loop has visited every fragment of `fs`. */
  function CarveFold(fs: seq<nat>, isStart: nat -> bool): Carving {
    if |fs| == 0 then Carving([], None)
    else CarveStep(CarveFold(fs[..|fs| - 1], isStart), fs[|fs| - 1], isStart(fs[|fs| - 1]))
  }

  /** Every state piece is a file: one start fragment, then only non-start fragments. */
  ghost predicate IsFileRun(run: seq<nat>, isStart: nat -> bool) {
    |run| > 0 && isStart(run[0]) && forall k :: 1 <= k < |run| ==> !isStart(run[k])
  }

  /** All files of a state, the open one last. */
  function Files(c: Carving): seq<seq<nat>> {
    c.closed + (if c.open.Some? then [c.open.value] else [])
  }

  /** The fold visits the fragments one by one. */
  lemma CarveFoldSnoc(fs: seq<nat>, f: nat, isStart: nat -> bool)
    ensures CarveFold(fs + [f], isStart) == CarveStep(CarveFold(fs, isStart), f, isStart(f))
  {
    assert (fs + [f])[..|fs|] == fs;
  }

  /** What one step does to the list of files. */
  lemma FilesStep(c: Carving, f: nat, start: bool)
    ensures start ==> Files(CarveStep(c, f, start)) == Files(c) + [[f]]
    ensures !start && c.open.Some? ==>
      && Files(c) == c.closed + [c.open.value]
      && Files(CarveStep(c, f, start)) == c.closed + [c.open.value + [f]]
    ensures !start && c.open.None? ==> Files(CarveStep(c, f, start)) == Files(c)
  {
  }

  /** No file is open exactly while no signature has been seen, and then none is closed either. */
  lemma {:induction false} CarveOpen(fs: seq<nat>, isStart: nat -> bool)
    ensures var c := CarveFold(fs, isStart);
      && (c.open.None? <==> FirstStart(fs, isStart) == |fs|)
      && (c.open.None? ==> c.closed == [])
  {
    if |fs| > 0 {
      CarveOpen(fs[..|fs| - 1], isStart);
    }
  }

  /** One file per signature fragment. */
  lemma {:induction false} CarveCount(fs: seq<nat>, isStart: nat -> bool)
    ensures |Files(CarveFold(fs, isStart))| == CountStarts(fs, isStart)
  {
    if |fs| > 0 {
      var init, f := fs[..|fs| - 1], fs[|fs| - 1];
      CarveCount(init, isStart);
      FilesStep(CarveFold(init, isStart), f, isStart(f));
    }
  }

  ghost predicate AllFileRuns(files: seq<seq<nat>>, isStart: nat -> bool) {
    forall k :: 0 <= k < |files| ==> IsFileRun(files[k], isStart)
  }

  /** Every file opens with a signature fragment and holds no other. */
  lemma {:induction false} CarveWellFormed(fs: seq<nat>, isStart: nat -> bool)
    ensures AllFileRuns(Files(CarveFold(fs, isStart)), isStart)
  {
    if |fs| > 0 {
      var init, f := fs[..|fs| - 1], fs[|fs| - 1];
      CarveWellFormed(init, isStart);
      var c0 := CarveFold(init, isStart);
      FilesStep(c0, f, isStart(f));
      var before, after := Files(c0), Files(CarveFold(fs, isStart));
      if isStart(f) {
        assert IsFileRun([f], isStart);
        forall k | 0 <= k < |after|
          ensures IsFileRun(after[k], isStart)
        {
          if k < |before| {
            assert after[k] == before[k];
          }
        }
      } else if c0.open.Some? {
        var o := c0.open.value;
        assert IsFileRun(before[|before| - 1], isStart);
        assert before[|before| - 1] == o;
        assert IsFileRun(o + [f], isStart);
        forall k | 0 <= k < |after|
          ensures IsFileRun(after[k], isStart)
        {
          if k < |before| - 1 {
            assert after[k] == before[k];
          }
        }
      }
    }
  }

  lemma SuffixSnoc(init: seq<nat>, f: nat, i: nat)
    requires i <= |init|
    ensures (init + [f])[i..] == init[i..] + [f]
  {
  }

  /** Where the first signature fragment is, once one more fragment has been visited. */
  lemma FirstStartSnoc(init: seq<nat>, f: nat, isStart: nat -> bool)
    ensures var first := FirstStart(init, isStart);
      FirstStart(init + [f], isStart) ==
        if first < |init| then first else if isStart(f) then |init| else |init| + 1
  {
    assert (init + [f])[..|init|] == init;
  }

  /** The files, laid end to end, are the free list from its first signature fragment on. */
  lemma {:induction false} CarveConcat(fs: seq<nat>, isStart: nat -> bool)
    ensures Concat(Files(CarveFold(fs, isStart))) == fs[FirstStart(fs, isStart)..]
  {
    if |fs| > 0 {
      var init, f := fs[..|fs| - 1], fs[|fs| - 1];
      assert fs == init + [f];
      CarveConcat(init, isStart);
      CarveOpen(init, isStart);
      FirstStartSnoc(init, f, isStart);
      var c0 := CarveFold(init, isStart);
      var first := FirstStart(init, isStart);
      var before := Files(c0);
      assert Concat(before) == init[first..];
      FilesStep(c0, f, isStart(f));
      if isStart(f) {
        ConcatSnoc(before, [f]);
        SuffixSnoc(init, f, first);
      } else if c0.open.Some? {
        var o := c0.open.value;
        ConcatSnoc(c0.closed, o + [f]);
        ConcatSnoc(c0.closed, o);
        SuffixSnoc(init, f, first);
      }
    }
  }

  /**
    `saveRecAtFree`: the free fragments grouped into carved files, each one
    signature fragment followed by the fragments up to the next signature.
    Fragments before the first signature are dropped; every later fragment
    lands in exactly one file, in list order.
   */
  function CarveRuns(fs: seq<nat>, isStart: nat -> bool): (runs: seq<seq<nat>>)
    ensures |runs| == CountStarts(fs, isStart)
    ensures forall k :: 0 <= k < |runs| ==> IsFileRun(runs[k], isStart)
    ensures Concat(runs) == fs[FirstStart(fs, isStart)..]
  {
    CarveCount(fs, isStart);
    CarveWellFormed(fs, isStart);
    CarveConcat(fs, isStart);
    Files(CarveFold(fs, isStart))
  }

  /** The files carved from a free list, each file's fragments read and concatenated. */
  function CarveFilesBy(v: Volume, free: seq<nat>, isStart: nat -> bool): (files: seq<bytes>)
    ensures var runs := CarveRuns(free, isStart);
      && |files| == |runs| == CountStarts(free, isStart)
      && forall k :: 0 <= k < |runs| ==> files[k] == Concat(FragBytes(v, runs[k]))
  {
    var runs := CarveRuns(free, isStart);
    seq(|runs|, k requires 0 <= k < |runs| => Concat(FragBytes(v, runs[k])))
  }

  /** The signature test of `saveRecAtFree` over the first 32 bytes of each free fragment. */
  function CarveFiles(v: Volume, sig: bytes, free: seq<nat>): (files: seq<bytes>)
    ensures |files| == CountStarts(free, (f: nat) => StartsFile(v, sig, f))
  {
    CarveFilesBy(v, free, (f: nat) => StartsFile(v, sig, f))
  }

  /**
    Free fragments signature, data, data, signature, data give two files of
    three and two fragments.
   */
  lemma CarveExample(isStart: nat -> bool, a: nat, b: nat, c: nat, d: nat, e: nat)
    requires isStart(a) && !isStart(b) && !isStart(c) && isStart(d) && !isStart(e)
    ensures CarveRuns([a, b, c, d, e], isStart) == [[a, b, c], [d, e]]
  {
    CarveFoldSnoc([], a, isStart);
    assert [] + [a] == [a];
    assert CarveFold([a], isStart) == Carving([], Some([a]));
    CarveFoldSnoc([a], b, isStart);
    assert [a] + [b] == [a, b];
    assert CarveFold([a, b], isStart) == Carving([], Some([a, b]));
    CarveFoldSnoc([a, b], c, isStart);
    assert [a, b] + [c] == [a, b, c];
    assert CarveFold([a, b, c], isStart) == Carving([], Some([a, b, c]));
    CarveFoldSnoc([a, b, c], d, isStart);
    assert [a, b, c] + [d] == [a, b, c, d];
    assert CarveFold([a, b, c, d], isStart) == Carving([[a, b, c]], Some([d]));
    CarveFoldSnoc([a, b, c, d], e, isStart);
    assert [a, b, c, d] + [e] == [a, b, c, d, e];
    assert [d] + [e] == [d, e];
    assert CarveFold([a, b, c, d, e], isStart) == Carving([[a, b, c]], Some([d, e]));
    assert Files(Carving([[a, b, c]], Some([d, e]))) == [[a, b, c], [d, e]];
  }

  /** In byte terms, the example's two files are three and two whole fragments long. */
  lemma CarveExampleSizes(v: Volume, isStart: nat -> bool, a: nat, b: nat, c: nat, d: nat, e: nat)
    requires isStart(a) && !isStart(b) && !isStart(c) && isStart(d) && !isStart(e)
    requires OnDisk(v, a) && OnDisk(v, b) && OnDisk(v, c) && OnDisk(v, d) && OnDisk(v, e)
    ensures var files := CarveFilesBy(v, [a, b, c, d, e], isStart);
      |files| == 2 && |files[0]| == 3 * v.fragSize && |files[1]| == 2 * v.fragSize
  {
    CarveExample(isStart, a, b, c, d, e);
    var files := CarveFilesBy(v, [a, b, c, d, e], isStart);
    assert files[0] == Concat(FragBytes(v, [a, b, c]));
    assert files[1] == Concat(FragBytes(v, [d, e]));
    FragBytesOnDisk(v, [a, b, c]);
    FragBytesOnDisk(v, [d, e]);
    ConcatUniformLength(FragBytes(v, [a, b, c]), v.fragSize);
    ConcatUniformLength(FragBytes(v, [d, e]), v.fragSize);
  }

  /** The default pattern matches exactly the fragments that begin with its four bytes. */
  lemma DefaultSignatureMatches(frag: bytes)
    ensures HasSignature(DefaultSignature, frag) <==> |frag| >= 4 && frag[..4] == DefaultSignature
  {
    if |frag| >= 4 {
      assert Slice(frag, 0, 32)[..4] == frag[..4];
    }
  }

  // ---------------------------------------------------------------------
  // Dirty runs

  /** The inner loop of `saveRecAtDirty` steps from `a` to `b`. */
  predicate Continues(t: Table, a: nat, b: nat) {
    b == Next(t, a) && b != 0 && Begin(t, b) == Begin(t, a)
  }

  /**
    `c` is the run of the inner loop from `d`: each element the `next` of
    the one before, non-zero and with the same `begin`, up to a descriptor
    whose `next` is 0 or has another `begin`.
   */
  ghost predicate IsDirtyRun(t: Table, d: nat, c: seq<nat>) {
    && |c| > 0 && c[0] == d
    && (forall k :: 0 < k < |c| ==> Continues(t, c[k - 1], c[k]))
    && !Continues(t, c[|c| - 1], Next(t, c[|c| - 1]))
  }

  lemma DirtyRunCons(t: Table, d: nat, rest: seq<nat>)
    requires |rest| > 0 && IsDirtyRun(t, rest[0], rest) && Continues(t, d, rest[0])
    ensures IsDirtyRun(t, d, [d] + rest)
  {
    var c := [d] + rest;
    forall k | 0 < k < |c|
      ensures Continues(t, c[k - 1], c[k])
    {
      if k > 1 {
        assert c[k - 1] == rest[k - 2] && c[k] == rest[k - 1];
      }
    }
  }

  /** The inner loop, at most `fuel` hops; `None` when that is not enough. */
  function DirtyRun(t: Table, d: nat, fuel: nat): (r: Option<seq<nat>>)
    decreases fuel
    ensures r.Some? ==> IsDirtyRun(t, d, r.value) && |r.value| <= fuel + 1
  {
    var n := Next(t, d);
    if !Continues(t, d, n) then Some([d])
    else if fuel == 0 then None
    else
      match DirtyRun(t, n, fuel - 1)
      case None => None
      case Some(rest) =>
        DirtyRunCons(t, d, rest);
        Some([d] + rest)
  }

  /** Every run within the bound is the one the inner loop produces. */
  lemma {:induction false} DirtyRunComplete(t: Table, d: nat, c: seq<nat>, fuel: nat)
    requires IsDirtyRun(t, d, c) && |c| <= fuel + 1
    ensures DirtyRun(t, d, fuel) == Some(c)
    decreases |c|
  {
    if |c| == 1 {
      assert !Continues(t, d, Next(t, d));
      assert c == [d];
    } else {
      var rest := c[1..];
      assert Continues(t, c[0], c[1]);
      assert Continues(t, d, Next(t, d)) && Next(t, d) == c[1];
      assert IsDirtyRun(t, c[1], rest) by {
        forall k | 0 < k < |rest|
          ensures Continues(t, rest[k - 1], rest[k])
        {
          assert rest[k - 1] == c[k] && rest[k] == c[k + 1];
        }
      }
      DirtyRunComplete(t, c[1], rest, fuel - 1);
      assert c == [d] + rest;
      assert DirtyRun(t, d, fuel) == Some([d] + rest);
    }
  }

  /** Every fragment of a run shares the `begin` index of its first. */
  lemma DirtyRunSharesBegin(t: Table, d: nat, c: seq<nat>)
    requires IsDirtyRun(t, d, c)
    ensures forall k :: 0 <= k < |c| ==> Begin(t, c[k]) == Begin(t, d)
  {
    var k := 0;
    while k < |c|
      invariant 0 <= k <= |c|
      invariant forall j :: 0 <= j < k ==> Begin(t, c[j]) == Begin(t, d)
    {
      if k > 0 {
        assert Continues(t, c[k - 1], c[k]);
      }
      k := k + 1;
    }
  }

  /** A run that ends never revisits a descriptor. */
  lemma DirtyRunDistinct(t: Table, d: nat, c: seq<nat>)
    requires IsDirtyRun(t, d, c)
    ensures Distinct(c)
  {
    forall a, b | 0 <= a < b < |c|
      ensures c[a] != c[b]
    {
      var m := 0;
      while b + m < |c| - 1
        invariant 0 <= m && b + m <= |c| - 1
        invariant c[a] == c[b] ==> c[a + m] == c[b + m]
      {
        assert Continues(t, c[a + m], c[a + m + 1]) && Continues(t, c[b + m], c[b + m + 1]);
        m := m + 1;
      }
      assert Continues(t, c[a + m], c[a + m + 1]) && c[a + m + 1] == Next(t, c[a + m]);
    }
  }

  /**
    A run has at most one descriptor more than the table: a record past the
    end has `next` 0, so only the last element can lie outside.
   */
  lemma DirtyRunLength(t: Table, d: nat, c: seq<nat>)
    requires IsDirtyRun(t, d, c)
    ensures |c| <= |t| + 1
  {
    var body := c[..|c| - 1];
    DirtyRunDistinct(t, d, c);
    forall x | x in body
      ensures x in Range(|t|)
    {
      var k :| 0 <= k < |body| && body[k] == x;
      assert Continues(t, c[k], c[k + 1]);
      assert Range(|t|)[x] == x;
    }
    DistinctCovered(body, Range(|t|));
  }

  /** So the bound `Bound(t)` finds every run that ends; the inner loop fails only on a cycle. */
  lemma DirtyRunBoundSuffices(t: Table, d: nat, c: seq<nat>)
    requires IsDirtyRun(t, d, c)
    ensures DirtyRun(t, d, Bound(t)) == Some(c)
  {
    DirtyRunLength(t, d, c);
    DirtyRunComplete(t, d, c, Bound(t));
  }

  /**
    `rs` are runs the outer loop may emit after `saved` was written: each one
    starts at a dirty index not written before it, and is a dirty run.
   */
  ghost predicate RunsAfter(t: Table, dirty: seq<nat>, saved: seq<nat>, rs: seq<seq<nat>>)
    decreases |rs|
  {
    |rs| == 0 ||
      (&& |rs[0]| > 0 && rs[0][0] in dirty && rs[0][0] !in saved
       && IsDirtyRun(t, rs[0][0], rs[0])
       && RunsAfter(t, dirty, saved + rs[0], rs[1..]))
  }

  /**
    The outer loop of `saveRecAtDirty` from list position `indx`, with the
    fragments written so far in `saved`. It stops once as many fragments
    have been written as the dirty list is long; a position past the list
    before that is the `IndexError` of `saveRecAtDirty` (`DirtyListExhausted`).
   */
  function DirtyFrom(t: Table, dirty: seq<nat>, indx: nat, saved: seq<nat>, fuel: nat): (r: Result<seq<seq<nat>>>)
    decreases |dirty| - indx
    ensures r.Success? ==> |saved| + |Concat(r.value)| >= |dirty| && RunsAfter(t, dirty, saved, r.value)
  {
    if |saved| >= |dirty| then Success([])
    else if indx >= |dirty| then Failure(DirtyListExhausted)
    else if dirty[indx] in saved then DirtyFrom(t, dirty, indx + 1, saved, fuel)
    else
      match DirtyRun(t, dirty[indx], fuel)
      case None => Failure(MalformedChain)
      case Some(run) =>
        match DirtyFrom(t, dirty, indx + 1, saved + run, fuel)
        case Failure(e) => Failure(e)
        case Success(rs) =>
          ConcatCons(run, rs);
          assert ([run] + rs)[1..] == rs;
          Success([run] + rs)
  }

  /** `saveRecAtDirty`'s runs over a dirty list, each inner loop allowed `Bound(t)` hops. */
  function DirtyRuns(t: Table, dirty: seq<nat>): (r: Result<seq<seq<nat>>>)
    ensures r.Success? ==> |Concat(r.value)| >= |dirty| && RunsAfter(t, dirty, [], r.value)
    ensures r.Failure? ==> r.error in {MalformedChain, DirtyListExhausted}
  {
    DirtyFromErrors(t, dirty, 0, [], Bound(t));
    DirtyFrom(t, dirty, 0, [], Bound(t))
  }

  lemma {:induction false} DirtyFromErrors(t: Table, dirty: seq<nat>, indx: nat, saved: seq<nat>, fuel: nat)
    decreases |dirty| - indx
    ensures var r := DirtyFrom(t, dirty, indx, saved, fuel);
      r.Failure? ==> r.error in {MalformedChain, DirtyListExhausted}
  {
    if |saved| < |dirty| && indx < |dirty| {
      if dirty[indx] in saved {
        DirtyFromErrors(t, dirty, indx + 1, saved, fuel);
      } else if DirtyRun(t, dirty[indx], fuel).Some? {
        DirtyFromErrors(t, dirty, indx + 1, saved + DirtyRun(t, dirty[indx], fuel).value, fuel);
      }
    }
  }

  /**
    On a duplicate-free dirty list the outer loop never runs past its end:
    every dirty index is written by the time the list is used up, so by
    then as many fragments have been written as the list is long.
   */
  lemma {:induction false} DirtyNeverExhausted(t: Table, dirty: seq<nat>, indx: nat, saved: seq<nat>, fuel: nat)
    requires Distinct(dirty)
    requires forall j :: 0 <= j < indx && j < |dirty| ==> dirty[j] in saved
    decreases |dirty| - indx
    ensures DirtyFrom(t, dirty, indx, saved, fuel) != Failure(DirtyListExhausted)
  {
    if indx >= |dirty| {
      DistinctCovered(dirty, saved);
    } else if |saved| < |dirty| {
      if dirty[indx] in saved {
        DirtyNeverExhausted(t, dirty, indx + 1, saved, fuel);
      } else if DirtyRun(t, dirty[indx], fuel).Some? {
        var run := DirtyRun(t, dirty[indx], fuel).value;
        DirtyNeverExhausted(t, dirty, indx + 1, saved + run, fuel);
      }
    }
  }

  /** The position of the first dirty index not among `saved`; `|dirty|` when there is none. */
  function FirstUnsaved(dirty: seq<nat>, saved: seq<nat>): (r: nat)
    ensures r <= |dirty|
    ensures forall j :: 0 <= j < r ==> dirty[j] in saved
    ensures r < |dirty| ==> dirty[r] !in saved
  {
    if |dirty| == 0 || dirty[0] !in saved then 0
    else 1 + FirstUnsaved(dirty[1..], saved)
  }

  /**
    The runs `rs`, written after `saved`, come in the outer loop's order:
    each starts at the first dirty index, in list order, not written before
    it, and is started only while fewer fragments than the list's length
    have been written.
   */
  ghost predicate InListOrder(dirty: seq<nat>, saved: seq<nat>, rs: seq<seq<nat>>) {
    forall k :: 0 <= k < |rs| ==> StartsFirstUnsaved(dirty, saved + Concat(rs[..k]), rs[k])
  }

  /** `run` is started after `before` was written, at the first dirty index not in it. */
  predicate StartsFirstUnsaved(dirty: seq<nat>, before: seq<nat>, run: seq<nat>) {
    && |before| < |dirty| && |run| > 0
    && FirstUnsaved(dirty, before) < |dirty| && run[0] == dirty[FirstUnsaved(dirty, before)]
  }

  /** What is written before run `k + 1` of `[run] + rest`. */
  lemma WrittenBefore(saved: seq<nat>, run: seq<nat>, rest: seq<seq<nat>>, k: nat)
    requires k <= |rest|
    ensures saved + Concat(([run] + rest)[..k + 1]) == (saved + run) + Concat(rest[..k])
  {
    assert ([run] + rest)[..k + 1] == [run] + rest[..k];
    ConcatCons(run, rest[..k]);
  }

  lemma InListOrderCons(dirty: seq<nat>, saved: seq<nat>, run: seq<nat>, rest: seq<seq<nat>>)
    requires StartsFirstUnsaved(dirty, saved, run)
    requires InListOrder(dirty, saved + run, rest)
    ensures InListOrder(dirty, saved, [run] + rest)
  {
    var rs := [run] + rest;
    forall k | 0 <= k < |rs|
      ensures StartsFirstUnsaved(dirty, saved + Concat(rs[..k]), rs[k])
    {
      if k == 0 {
        assert rs[..k] == [] && saved + Concat(rs[..k]) == saved;
      } else {
        WrittenBefore(saved, run, rest, k - 1);
        assert rs[k] == rest[k - 1];
      }
    }
  }

  /** With every dirty index before `indx` written, the first unwritten one is at `indx` when that one is unwritten. */
  lemma FirstUnsavedAt(dirty: seq<nat>, saved: seq<nat>, indx: nat)
    requires indx < |dirty| && dirty[indx] !in saved
    requires forall j :: 0 <= j < indx ==> dirty[j] in saved
    ensures FirstUnsaved(dirty, saved) == indx
  {
  }

  /** From position `indx`, with every earlier dirty index written, the outer loop emits its runs in list order. */
  lemma {:induction false} DirtyFromInOrder(t: Table, dirty: seq<nat>, indx: nat, saved: seq<nat>, fuel: nat)
    requires forall j :: 0 <= j < indx && j < |dirty| ==> dirty[j] in saved
    requires DirtyFrom(t, dirty, indx, saved, fuel).Success?
    decreases |dirty| - indx
    ensures InListOrder(dirty, saved, DirtyFrom(t, dirty, indx, saved, fuel).value)
  {
    if |saved| < |dirty| {
      if dirty[indx] in saved {
        DirtyFromInOrder(t, dirty, indx + 1, saved, fuel);
      } else {
        var run := DirtyRun(t, dirty[indx], fuel).value;
        var rest := DirtyFrom(t, dirty, indx + 1, saved + run, fuel).value;
        assert DirtyFrom(t, dirty, indx, saved, fuel).value == [run] + rest;
        assert run[0] == dirty[indx];
        DirtyFromInOrder(t, dirty, indx + 1, saved + run, fuel);
        FirstUnsavedAt(dirty, saved, indx);
        InListOrderCons(dirty, saved, run, rest);
      }
    }
  }

  /**
    `saveRecAtDirty`'s order: run `k` starts at the first dirty index, in list
    order, that the runs before it did not write, and a run is started only
    while fewer fragments than the list's length have been written.
   */
  lemma DirtyRunsInOrder(t: Table, dirty: seq<nat>)
    requires DirtyRuns(t, dirty).Success?
    ensures var rs := DirtyRuns(t, dirty).value;
      forall k :: 0 <= k < |rs| ==> StartsFirstUnsaved(dirty, Concat(rs[..k]), rs[k])
  {
    var rs := DirtyRuns(t, dirty).value;
    DirtyFromInOrder(t, dirty, 0, [], Bound(t));
    forall k | 0 <= k < |rs|
      ensures [] + Concat(rs[..k]) == Concat(rs[..k])
    {
    }
  }

  /**
    When the runs stay inside the dirty list and write no fragment twice,
    every dirty fragment is written.
   */
  lemma DirtyCoversAll(t: Table, dirty: seq<nat>, runs: seq<seq<nat>>)
    requires DirtyRuns(t, dirty) == Success(runs)
    requires Distinct(dirty) && Distinct(Concat(runs))
    requires forall x :: x in Concat(runs) ==> x in dirty
    ensures forall x :: x in dirty ==> x in Concat(runs)
  {
    var written := Concat(runs);
    ElemsBound(written);
    ElemsBound(dirty);
    SubsetFull(Elems(written), Elems(dirty));
  }

  /**
    Descriptor 10 (begin 5, next 11), 11 (begin 5, next 0) and 12 (next 0)
    on the dirty list `[10, 11, 12]` give the runs `[10, 11]` and `[12]`.
   */
  lemma DirtyExample(t: Table)
    requires Next(t, 10) == 11 && Begin(t, 10) == 5 && Begin(t, 11) == 5
    requires Next(t, 11) == 0 && Next(t, 12) == 0
    ensures DirtyRuns(t, [10, 11, 12]) == Success([[10, 11], [12]])
  {
    var dirty := [10, 11, 12];
    var fuel := Bound(t);
    assert DirtyRun(t, 11, fuel - 1) == Some([11]);
    assert DirtyRun(t, 10, fuel) == Some([10] + [11]);
    assert [10] + [11] == [10, 11];
    assert DirtyRun(t, 12, fuel) == Some([12]);
    assert [] + [10, 11] == [10, 11];
    assert DirtyFrom(t, dirty, 3, [10, 11, 12], fuel) == Success([]);
    assert [10, 11] + [12] == [10, 11, 12];
    assert 12 !in [10, 11] && [[12]] + [] == [[12]];
    assert DirtyFrom(t, dirty, 2, [10, 11], fuel) == Success([[12]]);
    assert DirtyFrom(t, dirty, 1, [10, 11], fuel) == Success([[12]]);
    assert [[10, 11]] + [[12]] == [[10, 11], [12]];
  }

  /**
    The outer loop stops once as many fragments are written as the dirty
    list is long. A run that takes in a Continuation outside the list uses
    up that count: with 10 (begin 5, next 11) and 11 (begin 5, next 0), the
    list `[10, 20]` gives the single run `[10, 11]`, and 20 is never written.
   */
  lemma DirtyDropExample(t: Table)
    requires Next(t, 10) == 11 && Begin(t, 10) == 5 && Begin(t, 11) == 5 && Next(t, 11) == 0
    ensures DirtyRuns(t, [10, 20]) == Success([[10, 11]])
    ensures forall k :: 0 <= k < |DirtyRuns(t, [10, 20]).value| ==> 20 !in DirtyRuns(t, [10, 20]).value[k]
  {
    var dirty := [10, 20];
    var fuel := Bound(t);
    assert DirtyRun(t, 11, fuel - 1) == Some([11]);
    assert DirtyRun(t, 10, fuel) == Some([10] + [11]);
    assert [10] + [11] == [10, 11];
    assert [] + [10, 11] == [10, 11];
    assert DirtyFrom(t, dirty, 1, [10, 11], fuel) == Success([]);
    assert [[10, 11]] + [] == [[10, 11]];
  }

  /**
    The recovered dirty videos, one per run. Each run whose fragments lie on
    the medium is recovered as those fragments read whole, in run order.
   */
  function RecoverDirty(v: Volume, dirty: seq<nat>): (r: Result<seq<bytes>>)
    ensures r.Success? <==> DirtyRuns(v.table, dirty).Success?
    ensures r.Success? ==> var runs := DirtyRuns(v.table, dirty).value;
      |r.value| == |runs| && forall k :: 0 <= k < |runs| ==> r.value[k] == Concat(FragBytes(v, runs[k]))
    ensures r.Success? ==> var runs := DirtyRuns(v.table, dirty).value;
      |r.value| == |runs| && forall k :: 0 <= k < |runs| ==> LaidOut(v, runs[k], r.value[k])
  {
    match DirtyRuns(v.table, dirty)
    case Failure(e) => Failure(e)
    case Success(runs) =>
      RunsBytes(v, runs);
      Success(seq(|runs|, k requires 0 <= k < |runs| => Concat(FragBytes(v, runs[k]))))
  }

  lemma RunsBytes(v: Volume, runs: seq<seq<nat>>)
    ensures forall k :: 0 <= k < |runs| ==> LaidOut(v, runs[k], Concat(FragBytes(v, runs[k])))
  {
    forall k | 0 <= k < |runs| {
      ConcatLaidOut(v, runs[k]);
    }
  }

  /** `saveRecVideos`: the carved files plus the dirty videos. */
  function RecoverCount(v: Volume, sig: bytes, free: seq<nat>, dirty: seq<nat>): (r: Result<nat>)
    ensures r.Success? <==> DirtyRuns(v.table, dirty).Success?
    ensures r.Success? ==>
      r.value == CountStarts(free, (f: nat) => StartsFile(v, sig, f)) + |DirtyRuns(v.table, dirty).value|
  {
    match RecoverDirty(v, dirty)
    case Failure(e) => Failure(e)
    case Success(videos) => Success(|CarveFiles(v, sig, free)| + |videos|)
  }
}

=== FILE: timestamp.dfy ===
/**
  The packed 32-bit date-time word of a descriptor: six bit-fields, most
  significant first, year(6) month(4) day(5) hour(5) minute(6) second(6),
  and its fixed-width text renderings.
 */
module TimeStamp {
  import opened Arith

  function Pow2(k: nat): (r: nat)
    ensures r >= 1
  {
    if k == 0 then 1 else 2 * Pow2(k - 1)
  }

  lemma {:induction false} Pow2Add(a: nat, b: nat)
    ensures Pow2(a + b) == Pow2(a) * Pow2(b)
  {
    if a > 0 {
      Pow2Add(a - 1, b);
    }
  }

  /** The powers the timestamp layout uses. */
  lemma Pow2Values()
    ensures Pow2(0) == 1 && Pow2(4) == 16 && Pow2(5) == 32 && Pow2(6) == 64
    ensures Pow2(12) == 0x1000 && Pow2(17) == 0x2_0000 && Pow2(22) == 0x40_0000
    ensures Pow2(26) == 0x400_0000 && Pow2(32) == 0x1_0000_0000
  {
    assert Pow2(6) == 64;
    assert Pow2(12) == 0x1000;
    assert Pow2(17) == 0x2_0000;
    assert Pow2(22) == 0x40_0000;
    assert Pow2(26) == 0x400_0000;
    assert Pow2(32) == 0x1_0000_0000;
  }

  /**
    The `width`-bit field of `n` whose most significant bit is bit
    `position` (bit 0 is the least significant). A field that would reach
    below bit 0 is a negative shift, which Python rejects with `ValueError`.
   */
  function ExtractBits(n: nat, position: nat, width: nat): (r: nat)
    requires width <= position + 1
    ensures r < Pow2(width)
  {
    (n / Pow2(position + 1 - width)) % Pow2(width)
  }

  /**
    Bit-fields tile: everything from bit `lo` up is the `width`-bit field
    starting at `lo` plus, shifted by `width`, everything from bit `lo + width` up.
   */
  lemma ExtractBitsSplit(n: nat, lo: nat, width: nat)
    requires width > 0
    ensures n / Pow2(lo) == ExtractBits(n, lo + width - 1, width) + Pow2(width) * (n / Pow2(lo + width))
  {
    var q := n / Pow2(lo);
    Pow2Add(lo, width);
    DivDiv(n, Pow2(lo), Pow2(width));
    assert q == Pow2(width) * (q / Pow2(width)) + q % Pow2(width);
  }

  /**
    A field value placed at bit `lo` (scale `p`) under any higher bits and
    over any lower bits is extracted back.
   */
  lemma ExtractPlaced(raw: nat, lo: nat, width: nat, p: nat, w: nat, high: nat, f: nat, low: nat)
    requires width > 0 && p == Pow2(lo) && w == Pow2(width) && f < w && low < p
    requires raw == (high * w + f) * p + low
    ensures ExtractBits(raw, lo + width - 1, width) == f
  {
    var m := high * w + f;
    MulComm(m, p);
    DivUnique(raw, p, m, low);
    MulComm(high, w);
    DivUnique(m, w, high, f);
  }

  /** The six fields of a timestamp; `year` counts from 2000. */
  datatype Stamp = Stamp(year: nat, month: nat, day: nat, hour: nat, minute: nat, second: nat)

  /** Every field fits its bit width. */
  predicate Fits(s: Stamp) {
    s.year < 64 && s.month < 16 && s.day < 32 && s.hour < 32 && s.minute < 64 && s.second < 64
  }

  /** `decodeTimeStamp`: no validation, any word decodes. */
  function Decode(ts: nat): (r: Stamp)
    ensures Fits(r)
  {
    Stamp(ExtractBits(ts, 31, 6), ExtractBits(ts, 25, 4), ExtractBits(ts, 21, 5),
          ExtractBits(ts, 16, 5), ExtractBits(ts, 11, 6), ExtractBits(ts, 5, 6))
  }

  /**
    Packing the fields back at their bit positions. The fields occupy
    disjoint bit ranges, so this sum is `year<<26 | month<<22 | day<<17 |
    hour<<12 | minute<<6 | second`.
   */
  function Encode(s: Stamp): nat {
    s.year * 0x400_0000 + s.month * 0x40_0000 + s.day * 0x2_0000
      + s.hour * 0x1000 + s.minute * 0x40 + s.second
  }

  /** Every 32-bit word is reproduced by re-packing its decoded fields. */
  lemma DecodeEncode(raw: nat)
    requires raw < 0x1_0000_0000
    ensures Encode(Decode(raw)) == raw
  {
    var s := Decode(raw);
    Pow2Values();
    ExtractBitsSplit(raw, 0, 6);
    ExtractBitsSplit(raw, 6, 6);
    ExtractBitsSplit(raw, 12, 5);
    ExtractBitsSplit(raw, 17, 5);
    ExtractBitsSplit(raw, 22, 4);
    ExtractBitsSplit(raw, 26, 6);
    assert raw / Pow2(32) == 0;
  }

  /** Fields that fit their widths are recovered from their packing. */
  lemma EncodeDecode(s: Stamp)
    requires Fits(s)
    ensures Decode(Encode(s)) == s
  {
    EncodeDecodeTime(s);
    EncodeDecodeDate(s);
  }

  lemma EncodeDecodeTime(s: Stamp)
    requires Fits(s)
    ensures var r := Decode(Encode(s)); r.hour == s.hour && r.minute == s.minute && r.second == s.second
  {
    var raw := Encode(s);
    var date := s.year * 0x20 * 0x10 + s.month * 0x20 + s.day;
    Pow2Values();
    ExtractPlaced(raw, 0, 6, 1, 64, (date * 0x20 + s.hour) * 0x40 + s.minute, s.second, 0);
    ExtractPlaced(raw, 6, 6, 64, 64, date * 0x20 + s.hour, s.minute, s.second);
    ExtractPlaced(raw, 12, 5, 4096, 32, date, s.hour, s.minute * 0x40 + s.second);
  }

  lemma EncodeDecodeDate(s: Stamp)
    requires Fits(s)
    ensures var r := Decode(Encode(s)); r.year == s.year && r.month == s.month && r.day == s.day
  {
    var raw := Encode(s);
    var time := s.hour * 0x1000 + s.minute * 0x40 + s.second;
    Pow2Values();
    ExtractPlaced(raw, 17, 5, 0x2_0000, 32, s.year * 0x10 + s.month, s.day, time);
    ExtractPlaced(raw, 22, 4, 0x40_0000, 16, s.year, s.month, s.day * 0x2_0000 + time);
    ExtractPlaced(raw, 26, 6, 0x400_0000, 64, 0, s.year, s.month * 0x40_0000 + s.day * 0x2_0000 + time);
  }

  /** The ASCII digit of a value below ten. */
  function Digit(d: nat): char
    requires d < 10
  {
    (48 + d) as char
  }

  predicate IsDigits(s: string) {
    forall k :: 0 <= k < |s| ==> '0' <= s[k] <= '9'
  }

  /** The value of a run of decimal digits, most significant first. */
  function DigitsValue(s: string): nat
    requires IsDigits(s)
  {
    if |s| == 0 then 0 else DigitsValue(s[..|s| - 1]) * 10 + (s[|s| - 1] as int - 48)
  }

  /** Python's `str(n)` for a natural number. */
  function Decimal(n: nat): (r: string)
    ensures IsDigits(r) && DigitsValue(r) == n
    ensures n < 10 ==> |r| == 1
    ensures 10 <= n < 100 ==> |r| == 2
  {
    if n < 10 then [Digit(n)]
    else
      var r := Decimal(n / 10) + [Digit(n % 10)];
      assert r[..|r| - 1] == Decimal(n / 10);
      r
  }

  /** The format `{n:02d}`: at least two digits, zero padded. */
  function Pad2(n: nat): (r: string)
    ensures IsDigits(r) && DigitsValue(r) == n
    ensures n < 100 ==> |r| == 2
  {
    if n < 10 then
      var r := ['0', Digit(n)];
      assert r[..1] == ['0'] && ['0'][..0] == [];
      assert DigitsValue(['0']) == 0;
      r
    else Decimal(n)
  }

  /** Three two-digit fields joined by `sep`: eight characters, each field read back. */
  function Join3(a: nat, b: nat, c: nat, sep: char): (r: string)
    requires a < 100 && b < 100 && c < 100
    ensures |r| == 8 && r[2] == sep && r[5] == sep
    ensures IsDigits(r[..2]) && DigitsValue(r[..2]) == a
    ensures IsDigits(r[3..5]) && DigitsValue(r[3..5]) == b
    ensures IsDigits(r[6..]) && DigitsValue(r[6..]) == c
  {
    var pa, pb, pc := Pad2(a), Pad2(b), Pad2(c);
    var r := pa + [sep] + pb + [sep] + pc;
    assert r[..2] == pa;
    assert r[3..5] == pb;
    assert r[6..] == pc;
    r
  }

  lemma PrefixSlices(p: string, s: string)
    requires |p| == 2 && |s| == 8
    ensures (p + s)[..2] == p && (p + s)[2..4] == s[..2] && (p + s)[5..7] == s[3..5] && (p + s)[8..10] == s[6..]
    ensures (p + s)[4] == s[2] && (p + s)[7] == s[5]
  {
  }

  /** `timeStampToDate`: `YYYY-MM-DD`, always ten characters, the fields read back from it. */
  function ToDate(ts: nat): (r: string)
    ensures |r| == 10 && r[..2] == "20" && r[4] == '-' && r[7] == '-'
    ensures IsDigits(r[2..4]) && DigitsValue(r[2..4]) == Decode(ts).year
    ensures IsDigits(r[5..7]) && DigitsValue(r[5..7]) == Decode(ts).month
    ensures IsDigits(r[8..10]) && DigitsValue(r[8..10]) == Decode(ts).day
  {
    var s := Decode(ts);
    var tail := Join3(s.year, s.month, s.day, '-');
    PrefixSlices("20", tail);
    "20" + tail
  }

  /** `timeStampToTime`: `HH:MM:SS`, always eight characters, the fields read back from it. */
  function ToTime(ts: nat): (r: string)
    ensures |r| == 8 && r[2] == ':' && r[5] == ':'
    ensures IsDigits(r[..2]) && DigitsValue(r[..2]) == Decode(ts).hour
    ensures IsDigits(r[3..5]) && DigitsValue(r[3..5]) == Decode(ts).minute
    ensures IsDigits(r[6..]) && DigitsValue(r[6..]) == Decode(ts).second
  {
    var s := Decode(ts);
    Join3(s.hour, s.minute, s.second, ':')
  }

  /** `timeStampToHuman`: the date and the time joined by one space, nineteen characters. */
  function ToHuman(ts: nat): (r: string)
    ensures |r| == 19 && r == ToDate(ts) + " " + ToTime(ts)
  {
    ToDate(ts) + " " + ToTime(ts)
  }
}
